=== FILE: README.md ===
# taoup in Dafny

A model of the core of `taoup.py`, the command-line tool that prints quotes from
*The Art of Unix Programming*. The modelled core covers five pieces:

- **Quote extractor.** This is the parsing half of `fetch_quotes`. It turns the lines of
  the upstream Ruby script into quotes. A line counts only if its stripped form starts
  with `puts `. Its double- and single-quoted literals are then matched left to right.
  Each literal loses its delimiters and has `\"` and `\'` unescaped. The parts are
  joined, the result is stripped, and it is kept only if non-empty.
- **Reservoir selector** `random_item`. The random draws are an explicit input: a draw
  sequence `d` with `d[i] <= i`, one draw per item. The result is the item at the last
  zero draw.
- **Cache format.** This covers what `write_quotes` puts into `~/.taoup.txt` and what
  `yield_quotes` reads back from it. Both are modelled as pure functions over the file
  contents.
- **Pager** `all`. It is modelled as a transcript of events: `Header(line)`,
  `Numbered(k, line)` and `Wait`, where `Wait` stands for the prompt for enter.
- **Glue in `main`.** This is the header predicate (`startswith('-----')`), random mode
  over the non-header quotes, paging with headers as jumps, and the cache that a first
  run writes and later runs read.

The modules follow that structure:

| module | file | contents |
|---|---|---|
| `Optional` | optional.dfy | `Option`, standing for Python's `None`-or-value |
| `Text` | text.dfy | `str.isspace`, `strip`, `replace` and `''.join` |
| `Extractor` | extractor.dfy | the regular expression as a scanner, unescaping, and per-line extraction |
| `Script` | script.dfy | `puts` statements built from literals: the extractor's inverse, and worked examples |
| `Cache` | cache.dfy | serialising, universal-newline reading, line splitting, and blank-line filtering |
| `Reservoir` | reservoir.dfy | `random_item`, both as a loop and as a function |
| `Uniformity` | uniformity.dfy | the counting form of the reservoir guarantee |
| `Pager` | pager.dfy | the `all` transcript |
| `Taoup` | taoup.dfy | `is_header`, random mode, all mode, and the first-run/later-run cache |

How the Python behaviour is represented:

- Strings are `seq<char>`. Whitespace is the exact set of code points for which
  `str.isspace` holds.
- The pattern `"(?:[^"\\]|\\.)+"|'(?:[^'\\]|\\.)+'` is modelled as a deterministic
  scanner (`MatchLength`). It is proved equal to a declarative description of the
  token language (`MatchesAt`).
  - A match needs at least one token.
  - Because `.` does not match a newline, a backslash followed by `\n` is not a token.
- Behaviour of the code worth knowing, which the model follows:
  - **Read-back keeps terminators.** `yield_quotes` yields each cache line with its
    `\n` terminator. Writing `x`, `y` and `z` therefore reads back as `x\n`, `y\n` and
    `z\n`, not `x`, `y` and `z` (`Taoup.CacheExample`).
  - **Random-mode output.** On a run that reads the cache, random mode prints a quote
    that still carries its terminator.
  - **Other backslashes mostly stay.** Only `\"` and `\'` are unescaped, and a body
    holding neither keeps every backslash sequence as written
    (`Extractor.UnescapeKeepsOtherEscapes`). The replacement does not know about
    escape tokens, though: in `puts '\\"'` the body `\\"` comes out as `\"`, because
    the second backslash of the `\\` pair goes with the quote after it
    (`Script.ExampleBackslashBeforeQuote`).
  - **An empty literal shifts the matching.** `""` is not a match, so the search
    moves on by one character. The closing quote of `""` then pairs with the
    opening quote of the next literal. `puts "" "abc"` yields nothing: its only
    match is `" "`, which strips to nothing, and `abc` is lost
    (`Script.EmptyFirstLiteral`).
  - **Only some literals round-trip.** Statements built from literals with a
    non-empty text and no backslash give back the stripped join of their texts
    (`Script.ExtractStatement`). The two cases above show why both limits are
    needed.

## Model

| member | source | states |
|---|---|---|
| Text.Strip | taoup.py:48 | `str.strip()`: no whitespace at either end; empty exactly when the input is blank; only characters of the input |
| Text.StripCharacterised | taoup.py:54 | the stripped text is the unique infix with only whitespace outside it and no whitespace at its own ends |
| Text.ReplaceAll | taoup.py:52 | `str.replace` leaves no character that is not from the input or the replacement |
| Text.ReplaceAbsent | taoup.py:52 | replacing a two-character pattern that never occurs leaves the text unchanged |
| Text.Concat | taoup.py:54 | `''.join`: every character comes from one of the parts |
| Text.ConcatAppend | taoup.py:54 | joining distributes over concatenating the list of parts |
| Extractor.BodyLength | taoup.py:43-45 | the greedy token scan consumes a prefix that is a well-formed literal body |
| Extractor.BodyLengthStops | taoup.py:43-45 | the scan stops exactly at the first unescaped closing delimiter |
| Extractor.MatchLength | taoup.py:42-46 | the scanner's result at the start of a string is a match of the pattern |
| Extractor.MatchLengthSpec | taoup.py:42-46 | the scanner finds a match of length m if and only if the pattern matches with length m |
| Extractor.EmptyQuotesNoMatch | taoup.py:43-45 | an empty literal (`""` or `''`) is not matched, because the pattern requires one token |
| Extractor.UnterminatedNoMatch | taoup.py:43-45 | a delimiter that is never closed gives no match and no error |
| Extractor.FindAll | taoup.py:50 | `findall`: every element is a complete match of the pattern |
| Extractor.FindAllChars | taoup.py:50 | every match is made of characters of the line |
| Extractor.FindAllSkips | taoup.py:50 | characters that cannot open a quote give no match; the search continues after them |
| Extractor.Unescape | taoup.py:52 | unescaping only adds delimiter characters |
| Extractor.Part | taoup.py:52 | a part holds only the span's characters and restored delimiters; an inner body with neither `\"` nor `\'` comes out unchanged |
| Extractor.UnescapeKeepsOtherEscapes | taoup.py:52 | a body without `\"` or `\'` is unchanged by unescaping, so other backslash sequences survive |
| Extractor.Parts | taoup.py:51-53 | one part per match, in order, each with its delimiters dropped and its escapes undone |
| Extractor.ExtractLine | taoup.py:47-56 | a line whose stripped form does not start with `puts ` gives nothing; any quote it gives is non-empty and stripped |
| Extractor.ExtractLineChars | taoup.py:50-54 | a quote holds only the line's characters and restored delimiters |
| Extractor.ExtractQuotes | taoup.py:47-56 | at most one quote per line; every quote is non-empty and stripped |
| Extractor.ExtractQuotesAppend | taoup.py:47-56 | quotes come out in line order, line by line |
| Script.Quoted | taoup.py:43-45 | a literal as written starts and ends with its delimiter |
| Script.EscapeIsBody | taoup.py:43-45 | an escaped text without backslashes is a well-formed literal body |
| Script.UnescapeOwn | taoup.py:52 | for a text without backslashes, replacing `\q` with `q` undoes the escaping of the delimiter q |
| Script.UnescapeOther | taoup.py:52 | for a text without backslashes, replacing the other delimiter's escape leaves the body escaped for q unchanged |
| Script.UnescapeEscape | taoup.py:52 | for a text without backslashes, unescaping inverts escaping, for either kind of delimiter |
| Script.QuotedMatches | taoup.py:42-46 | a writable literal (non-empty text, no backslash) is matched in full, whatever follows it |
| Script.ArgumentsParts | taoup.py:50-53 | for writable literals (non-empty text, no backslash), the parts of a statement's arguments are exactly the literals' texts, in order |
| Script.StatementParts | taoup.py:50-53 | for writable literals, the parts of the whole statement are the literals' texts: the keyword adds none |
| Script.FindAllAfterKeyword | taoup.py:50 | the keyword `puts`, with or without its following space, holds no delimiter and so contributes no match |
| Script.StatementStripped | taoup.py:48 | a statement with at least one literal is its own strip and starts with `puts ` |
| Script.ExtractNonEmptyStatement | taoup.py:47-56 | a statement of at least one literal, each with a non-empty text and no backslash, yields the stripped join of the texts, or nothing when that join is blank |
| Script.ExtractStatement | taoup.py:47-56 | round trip for literals with a non-empty text and no backslash: the statement yields the stripped join of their texts, or nothing when that is blank |
| Script.ExampleTwoParts | taoup.py:50-56 | `puts "a" 'b'` yields `ab` |
| Script.ExampleEscapedQuote | taoup.py:52 | `puts "a\"b"` yields `a"b` |
| Script.ExampleBareCommand | taoup.py:48-49 | a bare `puts` yields nothing |
| Script.ExampleGluedCommand | taoup.py:48-49 | `puts"a"`, with no space after the keyword, yields nothing |
| Script.ExampleUnterminated | taoup.py:43-45 | `puts "abc`, an unterminated quote, yields nothing and raises no error |
| Script.EmptyFirstLiteral | taoup.py:43-54 | `puts "" "a"` yields nothing for any delimiter-free a: the empty literal is skipped one character at a time and its closing quote pairs with the next opening one |
| Script.ExampleEmptyFirstLiteral | taoup.py:43-54 | `puts "" "abc"` yields nothing |
| Script.ExampleBackslashBeforeQuote | taoup.py:43-56 | `puts '\\"'` yields `\"`: the replacement of `\"` takes the second backslash of the `\\` pair |
| Cache.Serialise | taoup.py:63-64 | the written file ends in a newline whenever there is a quote |
| Cache.Write | taoup.py:59-62 | append mode keeps the old content as a prefix and adds the quotes after it; write mode discards the old content |
| Cache.Translate | taoup.py:78 | after universal-newline reading no `\r` is left; text without `\r` is unchanged |
| Cache.LineLength | taoup.py:79 | the first line runs to and includes the first `\n`, or to the end of the text |
| Cache.LineLengthOfQuote | taoup.py:79 | a written quote followed by its newline is read as exactly one line |
| Cache.SplitLines | taoup.py:79 | each line is non-empty, contains `\n` only at its end, and every line but the last ends in `\n` |
| Cache.SplitLinesJoin | taoup.py:79 | the lines joined together give back the file content |
| Cache.SplitSerialised | taoup.py:63-64 | a file of quotes without line breaks splits into exactly those quotes, each with its newline |
| Cache.SerialiseNoCarriageReturn | taoup.py:63-64 | quotes without line breaks give a file without `\r`, so newline translation leaves it alone |
| Cache.NonBlank | taoup.py:79 | keeps exactly the lines that are not blank after stripping |
| Cache.NonBlankTerminated | taoup.py:79 | a quote with its newline is blank exactly when the quote is, so filtering commutes with terminating |
| Cache.ReadQuotes | taoup.py:77-79 | nothing read back is blank |
| Cache.ReadBackWritten | taoup.py:77-79 | for quotes without `\n` or `\r`, reading back what `write_quotes` (lines 59-64) wrote gives every non-blank quote, in order, with its `\n` |
| Cache.NonBlankAppend | taoup.py:79 | the blank-line filter works piecewise |
| Cache.TranslateAppend | taoup.py:78 | newline translation works piecewise unless a `\r\n` pair straddles the cut |
| Cache.SplitLinesAppend | taoup.py:79 | line splitting works piecewise at a line boundary |
| Cache.ReadQuotesAppend | taoup.py:77-79 | reading works piecewise at a line boundary |
| Cache.ReadAppended | taoup.py:59-64 | for quotes without `\n` or `\r` and old content ending at a line boundary, after an append the old lines are read first, unchanged, then the new quotes |
| Cache.ReadOverwritten | taoup.py:59-64 | for quotes without `\n` or `\r`, after a write without append only the new quotes are read |
| Reservoir.LastZero | taoup.py:71-73 | the index of the last zero draw; there is none only if no draw is zero |
| Reservoir.FirstIsCandidate | taoup.py:72 | for valid draws the first item is always a candidate, because `randint(0, 0)` is 0 |
| Reservoir.Pick | taoup.py:67-74 | None exactly on empty input; otherwise an element of the input |
| Reservoir.RandomItem | taoup.py:67-74 | the loop returns the item at the last zero draw, and None exactly on empty input |
| Uniformity.LastZeroExtend | taoup.py:72-73 | one more draw selects the new index exactly when it is zero, and otherwise keeps the earlier selection |
| Uniformity.CountPicksAppend | taoup.py:72-73 | selections are counted piecewise over a split enumeration |
| Uniformity.CountPicksRow | taoup.py:72-73 | of the m ways to extend a vector by one draw, only the zero draw selects the new index |
| Uniformity.CountPicksExtendNew | taoup.py:72-73 | extending all vectors by one draw selects the new index once per vector |
| Uniformity.CountPicksExtendOld | taoup.py:72-73 | an earlier selection survives the n non-zero draws of the next step |
| Uniformity.RowMembers | taoup.py:72 | extending one vector by a draw below m gives exactly the vectors with that prefix and a last draw below m |
| Uniformity.ExtendMembers | taoup.py:72 | extending every vector gives exactly the one-longer vectors with a listed prefix and a last draw of at most n |
| Uniformity.AllDrawsMembers | taoup.py:72 | the enumeration holds exactly the valid draw vectors of a given length |
| Uniformity.AllDrawsNoDuplicates | taoup.py:72 | no draw vector is listed twice |
| Uniformity.RowNoDuplicates | taoup.py:72 | the extensions of one vector are pairwise different |
| Uniformity.ExtendNoDuplicates | taoup.py:72 | extending a duplicate-free enumeration keeps it duplicate-free |
| Uniformity.AllDrawsLength | taoup.py:72 | there are n! valid draw vectors of length n |
| Uniformity.CountSelected | taoup.py:67-74 | each index k < n is selected by exactly (n-1)! of the valid draw vectors |
| Uniformity.ReservoirIsUniform | taoup.py:67-74 | of the n! valid draw vectors, each index k < n is selected by exactly (n-1)! |
| Pager.Transcript | taoup.py:82-92 | every line gives at least one event; numbers continue from the starting count; header events carry only lines the jump predicate accepts, numbered events only lines it rejects |
| Pager.All | taoup.py:82-90 | the counter starts at zero: the k-th non-header line, counting from zero, is shown as number k+1 |
| Pager.Body | taoup.py:85-90 | the numbered lines: only lines the jump predicate rejects, and every such line |
| Pager.Headers | taoup.py:85-87 | the header lines: only lines the jump predicate accepts, and every such line |
| Pager.TranscriptNumbers | taoup.py:84-90 | the k-th non-header line is numbered k+1 after the start; the numbered texts are the non-header lines in order |
| Pager.TranscriptWaits | taoup.py:89-92 | one wait per numbered line, none per header |
| Pager.TranscriptHeaders | taoup.py:86-87 | the header events are exactly the lines the jump predicate accepts, in order |
| Pager.TranscriptShowsAll | taoup.py:85-90 | every line is shown exactly once, in order |
| Pager.TranscriptPairs | taoup.py:89-92 | a numbered line is immediately followed by a wait, and a wait always immediately follows a numbered line |
| Pager.NoJumpNumbersAll | taoup.py:86 | without a jump predicate every line is numbered |
| Taoup.IsHeader | taoup.py:104-105 | a header is a line whose first five characters are all dashes |
| Taoup.Candidates | taoup.py:114 | the quotes random mode considers: all non-header quotes, and only those |
| Taoup.CandidatesAppend | taoup.py:114 | the generator filters piecewise, so it keeps every copy of a non-header quote, in list order |
| Taoup.RandomQuote | taoup.py:114 | random mode never selects a header; it selects nothing only when every quote is a header |
| Taoup.RandomMode | taoup.py:113-116 | what random mode prints is a non-empty, non-header quote; when no quote is empty, nothing is printed only when every quote is a header (an empty pick is skipped by `if quote:`, but neither extraction nor a cache read-back produces an empty quote) |
| Taoup.BodyIsCandidates | taoup.py:114-118 | the lines all mode numbers are exactly the ones random mode chooses among |
| Taoup.PageAll | taoup.py:118 | all mode shows every quote once, in order; header events carry only header quotes and numbered events only the others |
| Taoup.PageAllNumbersNonHeaders | taoup.py:118 | in all mode, the k-th non-header quote is numbered k and waited on once; headers are shown unnumbered and never waited on |
| Taoup.ExtractedNoBreak | taoup.py:47-56 | quotes extracted from lines without line breaks contain none |
| Taoup.QuotesAreNonBlank | taoup.py:79 | no extracted quote is dropped as blank on read-back |
| Taoup.CacheKeepsExtractedQuotes | taoup.py:107-111 | for input lines without `\n` or `\r` (as `splitlines` produces them), a later run reads back every quote the first run extracted and wrote, in order, each with its terminator |
| Taoup.ReadBackPlainQuotes | taoup.py:77-79 | quotes that are neither blank nor broken across lines all come back from a fresh cache, in order, each with its newline |
| Taoup.HeaderTerminated | taoup.py:104-105 | adding the line terminator never changes whether a line is a header |
| Taoup.CandidatesTerminated | taoup.py:111-114 | a later run's random mode chooses among the first run's candidates, in order, each with its `\n` terminator |
| Taoup.PagingExample | taoup.py:82-92 | a header and two quotes page as: header, (1) and wait, (2) and wait |
| Taoup.CacheExample | taoup.py:77-79 | writing `x`, `y` and `z` reads back as `x\n`, `y\n` and `z\n` |

## Left out

- The HTTP fetch, its timeout, the status check and `body.decode` (taoup.py:35-40) are
  network I/O. The extractor takes the already-split list of lines as its input.
- `str.splitlines` on the fetched text (taoup.py:47) is not modelled, with its full set
  of Unicode line boundaries. The lines are an input.
- File I/O is not modelled: opening files, the `os.path.exists` branch, path expansion,
  and the choice of encoding (taoup.py:16, 62, 78, 107-111). Only the content format is
  modelled. The cache is a string, and the two runs are related by lemmas rather than
  a state machine.
- Line separators on writing are not modelled. The cache is opened in text mode
  (taoup.py:62), so each `\n` that `print` writes becomes `os.linesep`.
  `Cache.Serialise` assumes the POSIX separator `\n`. With `\r\n` the read side
  would still see the same lines, because `Cache.Translate` turns `\r\n` back into
  `\n`, but the read-back lemmas are proved for `\n` only.
- `wrap` (taoup.py:22-30) depends on `textwrap` and the terminal size. It is taken as
  the identity, so events carry the unwrapped line.
- Terminal interaction is not modelled: the blank line printed before a header, the
  `<enter>` prompt, the ANSI cursor-up erase, and `KeyboardInterrupt` (taoup.py:87,
  91-92, 123-126). A `Wait` event stands for the prompt and its erasure. Interruption
  is not modelled.
- The `{:,}` thousands separator in the counter (taoup.py:90) is left out. The counter
  is kept as a number.
- `repr` in random mode (taoup.py:116) is left out. The model yields the string that
  would be shown.
- `usage`, `exit` and argv handling (taoup.py:95-99, 119-122, 129-132) are command-line
  plumbing, and so is the completion message.
- Real-valued probabilities are left out. Uniformity is stated by counting draw
  vectors.
- Cache.ReadAppended: proved only when the old file content ends at a line boundary.
  Otherwise the first new quote would be read as part of the old last line.

=== FILE: cache.dfy ===
/** The cache file's content format: what `write_quotes` leaves in the file
    and what `yield_quotes` reads back from it (taoup.py). Opening, path
    expansion and encodings are not modelled; the file is its text. */
module Cache {
  import opened Text

  /** What `write_quotes` writes: `print(quote, file=...)` puts each quote
      on a line of its own, followed by a newline. */
  function Serialise(quotes: seq<string>): (r: string)
    ensures quotes != [] ==> r != [] && r[|r| - 1] == '\n'
    decreases |quotes|
  {
    if quotes == [] then [] else quotes[0] + "\n" + Serialise(quotes[1..])
  }

  /** The file after `write_quotes(quotes, append)`: mode `'a'` keeps the
      previous content and adds to its end, mode `'w'` truncates it first. */
  function Write(previous: string, quotes: seq<string>, append: bool): (r: string)
    ensures append ==> previous <= r
    ensures !append ==> r == Serialise(quotes)
    ensures append ==> r[|previous|..] == Serialise(quotes)
  {
    (if append then previous else []) + Serialise(quotes)
  }

  /** Universal-newline translation of a text-mode read: `\r\n` and a lone
      `\r` both arrive as `\n`. */
  function Translate(s: string): (r: string)
    ensures '\r' !in r
    ensures '\r' !in s ==> r == s
    ensures s != [] && s[|s| - 1] == '\n' ==> r != [] && r[|r| - 1] == '\n'
    decreases |s|
  {
    if s == [] then []
    else if s[0] == '\r' && |s| > 1 && s[1] == '\n' then "\n" + Translate(s[2..])
    else if s[0] == '\r' then "\n" + Translate(s[1..])
    else [s[0]] + Translate(s[1..])
  }

  /** Length of the first line of s, its `\n` included when there is one. */
  function LineLength(s: string): (n: nat)
    requires s != []
    ensures 0 < n <= |s|
    ensures '\n' !in s[..n - 1]
    ensures n == |s| || s[n - 1] == '\n'
    decreases |s|
  {
    if s[0] == '\n' || |s| == 1 then 1
    else
      var n := 1 + LineLength(s[1..]);
      assert s[..n - 1] == [s[0]] + s[1..][..n - 2];
      n
  }

  /** Iterating over a file opened in text mode: the lines of s, each with
      its `\n` kept; a last line without one is yielded as it is. */
  function SplitLines(s: string): (r: seq<string>)
    ensures forall k :: 0 <= k < |r| ==> r[k] != [] && '\n' !in r[k][..|r[k]| - 1]
    ensures forall k :: 0 <= k < |r| - 1 ==> r[k][|r[k]| - 1] == '\n'
    decreases |s|
  {
    if s == [] then []
    else
      var n := LineLength(s);
      [s[..n]] + SplitLines(s[n..])
  }

  /** Joining the lines gives the text back: splitting loses nothing. */
  lemma {:induction false} SplitLinesJoin(s: string)
    ensures Concat(SplitLines(s)) == s
    decreases |s|
  {
    if s != [] {
      var n := LineLength(s);
      SplitLinesJoin(s[n..]);
      assert SplitLines(s)[1..] == SplitLines(s[n..]);
      assert s == s[..n] + s[n..];
    }
  }

  /** The lines that are not blank, in order. */
  function NonBlank(lines: seq<string>): (r: seq<string>)
    ensures |r| <= |lines|
    ensures forall k :: 0 <= k < |r| ==> !AllSpace(r[k]) && r[k] in lines
    ensures forall k :: 0 <= k < |lines| && !AllSpace(lines[k]) ==> lines[k] in r
    decreases |lines|
  {
    if lines == [] then []
    else if AllSpace(lines[0]) then NonBlank(lines[1..])
    else [lines[0]] + NonBlank(lines[1..])
  }

  /** `yield_quotes`: the lines of the file that are not blank after
      stripping, each with its terminator. */
  function ReadQuotes(content: string): (r: seq<string>)
    ensures forall k :: 0 <= k < |r| ==> !AllSpace(r[k])
  {
    NonBlank(SplitLines(Translate(content)))
  }

  /** The lines `write_quotes` produces for quotes, newline included. */
  function Terminated(quotes: seq<string>): (r: seq<string>)
    ensures |r| == |quotes|
    ensures forall k :: 0 <= k < |quotes| ==> r[k] == quotes[k] + "\n"
    decreases |quotes|
  {
    if quotes == [] then [] else [quotes[0] + "\n"] + Terminated(quotes[1..])
  }

  /** A quote without a line break, followed by its `\n`, is read as one line. */
  lemma LineLengthOfQuote(q: string, rest: string)
    requires '\n' !in q
    ensures LineLength(q + "\n" + rest) == |q| + 1
  {
    var s := q + "\n" + rest;
    assert s[|q|] == '\n';
  }

  /** Serialised quotes without line breaks split back into their lines. */
  lemma {:induction false} SplitSerialised(quotes: seq<string>)
    requires forall k :: 0 <= k < |quotes| ==> NoBreak(quotes[k])
    ensures SplitLines(Serialise(quotes)) == Terminated(quotes)
    decreases |quotes|
  {
    if quotes != [] {
      var s := Serialise(quotes);
      var rest := Serialise(quotes[1..]);
      LineLengthOfQuote(quotes[0], rest);
      assert s[..|quotes[0]| + 1] == quotes[0] + "\n";
      assert s[|quotes[0]| + 1..] == rest;
      SplitSerialised(quotes[1..]);
    }
  }

  /** `\n` is whitespace, so adding terminators never changes which quotes are blank. */
  lemma {:induction false} NonBlankTerminated(quotes: seq<string>)
    ensures NonBlank(Terminated(quotes)) == Terminated(NonBlank(quotes))
    decreases |quotes|
  {
    if quotes != [] {
      var q := quotes[0];
      assert AllSpace(q + "\n") <==> AllSpace(q) by {
        assert forall i :: 0 <= i < |q| ==> (q + "\n")[i] == q[i];
        assert IsSpace('\n');
      }
      assert Terminated(quotes)[1..] == Terminated(quotes[1..]);
      NonBlankTerminated(quotes[1..]);
    }
  }

  /** Quotes without line breaks are written with no `\r` at all. */
  lemma {:induction false} SerialiseNoCarriageReturn(quotes: seq<string>)
    requires forall k :: 0 <= k < |quotes| ==> NoBreak(quotes[k])
    ensures '\r' !in Serialise(quotes)
    decreases |quotes|
  {
    if quotes != [] {
      SerialiseNoCarriageReturn(quotes[1..]);
    }
  }

  /** Round trip: reading back what `write_quotes` wrote yields each
      non-blank quote with its newline, in order, provided no quote holds a
      line break of its own. */
  lemma ReadBackWritten(quotes: seq<string>)
    requires forall k :: 0 <= k < |quotes| ==> NoBreak(quotes[k])
    ensures ReadQuotes(Serialise(quotes)) == Terminated(NonBlank(quotes))
  {
    SerialiseNoCarriageReturn(quotes);
    SplitSerialised(quotes);
    NonBlankTerminated(quotes);
  }

  /** The blank-line filter works piecewise, keeping order and copies. */
  lemma {:induction false} NonBlankAppend(a: seq<string>, b: seq<string>)
    ensures NonBlank(a + b) == NonBlank(a) + NonBlank(b)
    decreases |a|
  {
    if a == [] {
      assert a + b == b;
    } else {
      assert (a + b)[1..] == a[1..] + b;
      NonBlankAppend(a[1..], b);
    }
  }

  /** Translation works piecewise unless a `\r\n` pair straddles the cut. */
  lemma {:induction false} TranslateAppend(a: string, b: string)
    requires a == [] || a[|a| - 1] != '\r'
    ensures Translate(a + b) == Translate(a) + Translate(b)
    decreases |a|
  {
    if a == [] {
      assert a + b == b;
    } else {
      assert a[0] == '\r' ==> |a| > 1 && (a + b)[1] == a[1];
      if a[0] == '\r' && a[1] == '\n' {
        assert (a + b)[2..] == a[2..] + b;
        TranslateAppend(a[2..], b);
      } else {
        assert (a + b)[1..] == a[1..] + b;
        TranslateAppend(a[1..], b);
      }
    }
  }

  /** Text after a line boundary does not change the first line. */
  lemma {:induction false} LineLengthAppend(a: string, b: string)
    requires a != [] && a[|a| - 1] == '\n'
    ensures LineLength(a + b) == LineLength(a)
    decreases |a|
  {
    if a[0] != '\n' {
      assert (a + b)[1..] == a[1..] + b;
      LineLengthAppend(a[1..], b);
    }
  }

  /** Regrouping a concatenation; stated separately only to keep the
      proofs that use it cheap for the solver. */
  lemma ConsAppend(x: string, u: seq<string>, v: seq<string>)
    ensures [x] + (u + v) == ([x] + u) + v
  {
  }

  /** Splitting works piecewise at a line boundary. */
  lemma {:induction false} SplitLinesAppend(a: string, b: string)
    requires a == [] || a[|a| - 1] == '\n'
    ensures SplitLines(a + b) == SplitLines(a) + SplitLines(b)
    decreases |a|
  {
    if a == [] {
      assert a + b == b;
    } else {
      var n := LineLength(a);
      LineLengthAppend(a, b);
      assert (a + b)[..n] == a[..n];
      assert (a + b)[n..] == a[n..] + b;
      assert a[n..] == [] || a[n..][|a[n..]| - 1] == '\n';
      SplitLinesAppend(a[n..], b);
      var x, u, v := a[..n], SplitLines(a[n..]), SplitLines(b);
      assert SplitLines(a + b) == [x] + (u + v);
      assert SplitLines(a) == [x] + u;
      ConsAppend(x, u, v);
    }
  }

  /** Reading is piecewise at a line boundary. */
  lemma ReadQuotesAppend(a: string, b: string)
    requires a == [] || a[|a| - 1] == '\n'
    ensures ReadQuotes(a + b) == ReadQuotes(a) + ReadQuotes(b)
  {
    TranslateAppend(a, b);
    SplitLinesAppend(Translate(a), Translate(b));
    NonBlankAppend(SplitLines(Translate(a)), SplitLines(Translate(b)));
  }

  /** With `append=True` the previous lines are read back first and unchanged,
      then the new quotes; the previous content must end at a line boundary, as
      any content `write_quotes` produced does. */
  lemma ReadAppended(previous: string, quotes: seq<string>)
    requires previous == [] || previous[|previous| - 1] == '\n'
    requires forall k :: 0 <= k < |quotes| ==> NoBreak(quotes[k])
    ensures ReadQuotes(Write(previous, quotes, true)) == ReadQuotes(previous) + Terminated(NonBlank(quotes))
  {
    ReadQuotesAppend(previous, Serialise(quotes));
    ReadBackWritten(quotes);
  }

  /** With `append=False` the previous content is gone. */
  lemma ReadOverwritten(previous: string, quotes: seq<string>)
    requires forall k :: 0 <= k < |quotes| ==> NoBreak(quotes[k])
    ensures ReadQuotes(Write(previous, quotes, false)) == Terminated(NonBlank(quotes))
  {
    ReadBackWritten(quotes);
  }
}

=== FILE: extractor.dfy ===
/** The parsing half of `fetch_quotes` (taoup.py): from the lines of the
    upstream Ruby script, the quotes its `puts` statements print. The HTTP
    fetch and the decoding of the body are not modelled; the input is the
    list of lines `text.splitlines()` produced. */
module Extractor {
  import opened Optional
  import opened Text

  /** The two characters the quoted-substring pattern accepts as delimiters. */
  predicate IsDelimiter(c: char) {
    c == '"' || c == '\''
  }

  /** The language of a pattern body `(?:[^q\\]|\\.)*` for delimiter q: a run
      of tokens, each a character other than q and backslash, or a backslash
      followed by any character except a newline (`.` does not match `\n`). */
  predicate IsBody(t: string, q: char)
    decreases |t|
  {
    || t == []
    || (t[0] != q && t[0] != '\\' && IsBody(t[1..], q))
    || (|t| >= 2 && t[0] == '\\' && t[1] != '\n' && IsBody(t[2..], q))
  }

  /** Length of the greedy token run at the start of t. The two token
      alternatives start with different characters, so the run is unique. */
  function BodyLength(t: string, q: char): (n: nat)
    ensures n <= |t|
    ensures IsBody(t[..n], q)
    decreases |t|
  {
    if t != [] && t[0] != q && t[0] != '\\' then
      var n := 1 + BodyLength(t[1..], q);
      assert t[..n][1..] == t[1..][..n - 1];
      n
    else if |t| >= 2 && t[0] == '\\' && t[1] != '\n' then
      var n := 2 + BodyLength(t[2..], q);
      assert t[..n][2..] == t[2..][..n - 2];
      n
    else
      0
  }

  /** A body followed by its closing delimiter is scanned exactly to its end:
      the greedy scan never overshoots a delimiter and never stops early. */
  lemma {:induction false} BodyLengthStops(t: string, u: string, q: char)
    requires IsBody(t, q) && q != '\\'
    requires u != [] && u[0] == q
    ensures BodyLength(t + u, q) == |t|
    decreases |t|
  {
    var s := t + u;
    if t == [] {
      assert s == u;
    } else if t[0] != '\\' {
      assert s[0] == t[0] && s[1..] == t[1..] + u;
      BodyLengthStops(t[1..], u, q);
    } else {
      assert s[0] == '\\' && s[1] == t[1] && s[2..] == t[2..] + u;
      BodyLengthStops(t[2..], u, q);
    }
  }

  /** The quoted-substring pattern matches exactly s[..m] at the start of s:
      an opening delimiter, a non-empty body, the same delimiter again. */
  predicate MatchesAt(s: string, m: nat) {
    3 <= m <= |s| && IsDelimiter(s[0]) && s[m - 1] == s[0] && IsBody(s[1..m - 1], s[0])
  }

  /** Length of the pattern's match at the start of s, by the greedy scan. */
  function MatchLength(s: string): (r: Option<nat>)
    ensures r.Some? ==> MatchesAt(s, r.value)
  {
    if s != [] && IsDelimiter(s[0]) then
      var n := BodyLength(s[1..], s[0]);
      if 0 < n && n + 1 < |s| && s[n + 1] == s[0] then
        assert s[1..n + 1] == s[1..][..n];
        Some(n + 2)
      else None
    else None
  }

  /** The scan agrees with the pattern in both directions: it reports a match
      of length m exactly when the pattern matches s[..m]. */
  lemma MatchLengthSpec(s: string, m: nat)
    ensures MatchLength(s) == Some(m) <==> MatchesAt(s, m)
  {
    if MatchesAt(s, m) {
      var q := s[0];
      assert s[1..] == s[1..m - 1] + s[m - 1..];
      BodyLengthStops(s[1..m - 1], s[m - 1..], q);
    }
  }

  /** An empty pair of delimiters (`""` or `''`) is never a match. */
  lemma EmptyQuotesNoMatch(s: string)
    requires |s| >= 2 && IsDelimiter(s[0]) && s[1] == s[0]
    ensures MatchLength(s) == None
  {
  }

  /** An opening delimiter that never recurs is never a match. */
  lemma UnterminatedNoMatch(s: string)
    requires s != [] && IsDelimiter(s[0]) && s[0] !in s[1..]
    ensures MatchLength(s) == None
  {
  }

  /** `quoted.findall(s)`: the matches of the pattern, left to right and
      non-overlapping; after a failed attempt the search moves on by one
      character, after a match it resumes behind the match. */
  function FindAll(s: string): (r: seq<string>)
    ensures forall k :: 0 <= k < |r| ==> MatchesAt(r[k], |r[k]|)
    decreases |s|
  {
    if s == [] then []
    else
      match MatchLength(s)
      case Some(m) =>
        assert s[..m][1..m - 1] == s[1..m - 1];
        [s[..m]] + FindAll(s[m..])
      case None => FindAll(s[1..])
  }

  /** One step of the search where a match starts. */
  lemma FindAllAt(s: string, m: nat)
    requires MatchLength(s) == Some(m)
    ensures FindAll(s) == [s[..m]] + FindAll(s[m..])
  {
  }

  /** One step of the search where no match starts. */
  lemma FindAllPast(s: string)
    requires s != [] && MatchLength(s) == None
    ensures FindAll(s) == FindAll(s[1..])
  {
  }

  /** Every match is a piece of s. */
  lemma {:induction false} FindAllChars(s: string)
    ensures forall k, c :: 0 <= k < |FindAll(s)| && c in FindAll(s)[k] ==> c in s
    decreases |s|
  {
    if s != [] {
      match MatchLength(s)
      case Some(m) =>
        FindAllChars(s[m..]);
        assert forall c :: c in s[..m] ==> c in s;
        assert forall c :: c in s[m..] ==> c in s;
      case None =>
        FindAllChars(s[1..]);
        assert forall c :: c in s[1..] ==> c in s;
    }
  }

  /** Characters that cannot open a quote contribute no match. */
  lemma {:induction false} FindAllSkips(p: string, s: string)
    requires forall i :: 0 <= i < |p| ==> !IsDelimiter(p[i])
    ensures FindAll(p + s) == FindAll(s)
    decreases |p|
  {
    if p == [] {
      assert p + s == s;
    } else {
      assert (p + s)[1..] == p[1..] + s;
      FindAllSkips(p[1..], s);
    }
  }

  /** `p[1:-1].replace('\\"', '"').replace("\\'", "'")`: drop the delimiters,
      then unescape escaped double quotes, then escaped single quotes. The
      part uses only the span's characters and restored delimiters, and a
      body holding neither escape comes out unchanged. */
  function Part(span: string): (r: string)
    requires |span| >= 2
    ensures forall c :: c in r ==> c in span || IsDelimiter(c)
    ensures var t := span[1..|span| - 1];
      !HasPair(t, '\\', '"') && !HasPair(t, '\\', '\'') ==> r == t
  {
    var t := span[1..|span| - 1];
    if !HasPair(t, '\\', '"') && !HasPair(t, '\\', '\'') then
      UnescapeKeepsOtherEscapes(t);
      Unescape(t)
    else
      Unescape(t)
  }

  /** The two replaces of a part's body, `\"` first and `\'` second. */
  function Unescape(t: string): (r: string)
    ensures forall c :: c in r ==> c in t || IsDelimiter(c)
  {
    ReplaceAll(ReplaceAll(t, "\\\"", "\""), "\\'", "'")
  }

  /** A body holding neither `\"` nor `\'` comes through unescaping unchanged:
      every other backslash sequence is kept as it is. */
  lemma UnescapeKeepsOtherEscapes(t: string)
    requires !HasPair(t, '\\', '"') && !HasPair(t, '\\', '\'')
    ensures Unescape(t) == t
  {
    ReplaceAbsent(t, "\\\"", "\"");
    ReplaceAbsent(t, "\\'", "'");
  }

  /** The parts of a line's matches, in order. */
  function Parts(spans: seq<string>): (r: seq<string>)
    requires forall k :: 0 <= k < |spans| ==> |spans[k]| >= 2
    ensures |r| == |spans|
    ensures forall k :: 0 <= k < |r| ==> r[k] == Part(spans[k])
    decreases |spans|
  {
    if spans == [] then [] else [Part(spans[0])] + Parts(spans[1..])
  }

  /** What the extractor emits: non-empty and stripped. */
  predicate IsQuote(q: string) {
    q != [] && !IsSpace(q[0]) && !IsSpace(q[|q| - 1])
  }

  /** The quote one line yields, if any: only a line whose stripped form
      starts with `puts ` (space included) counts; its parts are joined in
      order and stripped, and an empty result is dropped. */
  function ExtractLine(line: string): (r: Option<string>)
    ensures !("puts " <= Strip(line)) ==> r == None
    ensures r.Some? ==> IsQuote(r.value)
  {
    if !("puts " <= Strip(line)) then None
    else
      var spans := FindAll(line);
      var quote := Strip(Concat(Parts(spans)));
      if quote == [] then None else Some(quote)
  }

  /** A quote is made only of the line's own characters and of the
      delimiters that unescaping restores; in particular it holds no line
      break unless the line did. */
  lemma ExtractLineChars(line: string)
    ensures ExtractLine(line).Some? ==>
      forall c :: c in ExtractLine(line).value ==> c in line || IsDelimiter(c)
  {
    if "puts " <= Strip(line) {
      var spans := FindAll(line);
      var parts := Parts(spans);
      FindAllChars(line);
      forall c | c in Concat(parts)
        ensures c in line || IsDelimiter(c)
      {
        var k :| 0 <= k < |parts| && c in parts[k];
        assert c in spans[k][1..|spans[k]| - 1] || IsDelimiter(c);
      }
    }
  }

  /** The generator loop of `fetch_quotes`: at most one quote per line, in
      line order. */
  function ExtractQuotes(lines: seq<string>): (r: seq<string>)
    ensures |r| <= |lines|
    ensures forall k :: 0 <= k < |r| ==> IsQuote(r[k])
    decreases |lines|
  {
    if lines == [] then []
    else
      var rest := ExtractQuotes(lines[1..]);
      match ExtractLine(lines[0])
      case Some(q) => [q] + rest
      case None => rest
  }

  /** Extraction works line by line: the quotes of a + b are those of a
      followed by those of b. */
  lemma {:induction false} ExtractQuotesAppend(a: seq<string>, b: seq<string>)
    ensures ExtractQuotes(a + b) == ExtractQuotes(a) + ExtractQuotes(b)
    decreases |a|
  {
    if a == [] {
      assert a + b == b;
    } else {
      assert (a + b)[1..] == a[1..] + b;
      ExtractQuotesAppend(a[1..], b);
    }
  }
}

=== FILE: optional.dfy ===
/** The absent-or-present value the quote tool returns where Python returns `None`. */
module Optional {

  datatype Option<+T> = None | Some(value: T)
}

=== FILE: pager.dfy ===
/** The pager `all(lines, jump)`: every line is shown in order; a line the
    jump predicate accepts is shown as an unnumbered header, every other
    line is shown with a running number and then waits for enter. The
    terminal interaction becomes a transcript of events. */
module Pager {
  import opened Optional

  datatype Event =
    | Header(text: string)                 // shown without a number, no wait
    | Numbered(count: nat, text: string)   // shown as "(count) text"
    | Wait                                 // the prompt for enter, then erased

  /** `jump and jump(line)`: with no jump predicate nothing is a header. */
  predicate Jumps(jump: Option<string -> bool>, line: string) {
    jump.Some? && jump.value(line)
  }

  /** The events for lines, numbering from count + 1. */
  function Transcript(lines: seq<string>, jump: Option<string -> bool>, count: nat): (r: seq<Event>)
    ensures |r| >= |lines|
    ensures forall i :: 0 <= i < |r| && r[i].Numbered? ==> r[i].count > count
    ensures forall i :: 0 <= i < |r| && r[i].Header? ==> Jumps(jump, r[i].text)
    ensures forall i :: 0 <= i < |r| && r[i].Numbered? ==> !Jumps(jump, r[i].text)
    decreases |lines|
  {
    if lines == [] then []
    else if Jumps(jump, lines[0]) then [Header(lines[0])] + Transcript(lines[1..], jump, count)
    else [Numbered(count + 1, lines[0]), Wait] + Transcript(lines[1..], jump, count + 1)
  }

  /** `all(lines, jump)`: the counter starts at zero, so the k-th line that
      is not a header (counting from zero) is shown as number k + 1. */
  function All(lines: seq<string>, jump: Option<string -> bool>): (r: seq<Event>)
    ensures |NumberedOf(r)| == |Body(lines, jump)|
    ensures forall k :: 0 <= k < |Body(lines, jump)| ==> NumberedOf(r)[k] == (k + 1, Body(lines, jump)[k])
  {
    TranscriptNumbers(lines, jump, 0);
    Transcript(lines, jump, 0)
  }

  /** The lines that get a number, in order. */
  function Body(lines: seq<string>, jump: Option<string -> bool>): (r: seq<string>)
    ensures |r| <= |lines|
    ensures forall k :: 0 <= k < |r| ==> r[k] in lines && !Jumps(jump, r[k])
    ensures forall k :: 0 <= k < |lines| && !Jumps(jump, lines[k]) ==> lines[k] in r
    decreases |lines|
  {
    if lines == [] then []
    else if Jumps(jump, lines[0]) then Body(lines[1..], jump)
    else [lines[0]] + Body(lines[1..], jump)
  }

  /** The header lines, in order. */
  function Headers(lines: seq<string>, jump: Option<string -> bool>): (r: seq<string>)
    ensures |r| <= |lines|
    ensures forall k :: 0 <= k < |r| ==> r[k] in lines && Jumps(jump, r[k])
    ensures forall k :: 0 <= k < |lines| && Jumps(jump, lines[k]) ==> lines[k] in r
    decreases |lines|
  {
    if lines == [] then []
    else if Jumps(jump, lines[0]) then [lines[0]] + Headers(lines[1..], jump)
    else Headers(lines[1..], jump)
  }

  /** The (number, text) pairs of the numbered events, in order. */
  function NumberedOf(events: seq<Event>): seq<(nat, string)>
    decreases |events|
  {
    if events == [] then []
    else if events[0].Numbered? then [(events[0].count, events[0].text)] + NumberedOf(events[1..])
    else NumberedOf(events[1..])
  }

  /** The texts of the header events, in order. */
  function HeadersOf(events: seq<Event>): seq<string>
    decreases |events|
  {
    if events == [] then []
    else if events[0].Header? then [events[0].text] + HeadersOf(events[1..])
    else HeadersOf(events[1..])
  }

  /** The number of waits for enter. */
  function Waits(events: seq<Event>): nat
    decreases |events|
  {
    if events == [] then 0
    else (if events[0].Wait? then 1 else 0) + Waits(events[1..])
  }

  /** The text shown, header or numbered, in the order shown. */
  function Shown(events: seq<Event>): seq<string>
    decreases |events|
  {
    if events == [] then []
    else if events[0].Wait? then Shown(events[1..])
    else [events[0].text] + Shown(events[1..])
  }

  /** Numbering: the k-th line that is not a header (counting from zero)
      is numbered count + k + 1, and the numbered texts are exactly the
      non-header lines in order. */
  lemma {:induction false} TranscriptNumbers(lines: seq<string>, jump: Option<string -> bool>, count: nat)
    ensures |NumberedOf(Transcript(lines, jump, count))| == |Body(lines, jump)|
    ensures forall k :: 0 <= k < |Body(lines, jump)| ==>
      NumberedOf(Transcript(lines, jump, count))[k] == (count + k + 1, Body(lines, jump)[k])
  {
    TranscriptEnumerates(lines, jump, count);
  }

  /** The texts of b paired with the numbers n + 1, n + 2, ... */
  function Enumerate(b: seq<string>, n: nat): seq<(nat, string)> {
    seq(|b|, k requires 0 <= k < |b| => (n + k + 1, b[k]))
  }

  /** Enumerating a line in front shifts the rest by one number. */
  lemma EnumerateCons(line: string, c: seq<string>, n: nat)
    ensures Enumerate([line] + c, n) == [(n + 1, line)] + Enumerate(c, n + 1)
  {
    var l, r := Enumerate([line] + c, n), [(n + 1, line)] + Enumerate(c, n + 1);
    assert |l| == |r|;
    forall k | 0 <= k < |l| ensures l[k] == r[k] {
      if k > 0 {
        assert ([line] + c)[k] == c[k - 1];
      }
    }
  }

  /** The numbered events enumerate the non-header lines from count. */
  lemma {:induction false} TranscriptEnumerates(lines: seq<string>, jump: Option<string -> bool>, count: nat)
    ensures NumberedOf(Transcript(lines, jump, count)) == Enumerate(Body(lines, jump), count)
    decreases |lines|
  {
    if lines != [] {
      var t := Transcript(lines, jump, count);
      if Jumps(jump, lines[0]) {
        TranscriptEnumerates(lines[1..], jump, count);
        assert t[1..] == Transcript(lines[1..], jump, count);
      } else {
        var rest := Transcript(lines[1..], jump, count + 1);
        TranscriptEnumerates(lines[1..], jump, count + 1);
        NumberedStep(t, count + 1, lines[0], rest);
        EnumerateCons(lines[0], Body(lines[1..], jump), count);
      }
    }
  }

  /** A numbered line and its wait contribute one pair. */
  lemma NumberedStep(t: seq<Event>, n: nat, line: string, rest: seq<Event>)
    requires t == [Numbered(n, line), Wait] + rest
    ensures NumberedOf(t) == [(n, line)] + NumberedOf(rest)
  {
    assert t[1..] == [Wait] + rest;
    assert t[1..][1..] == rest;
    assert NumberedOf(t[1..]) == NumberedOf(rest);
  }

  /** A numbered line and its wait add one wait. */
  lemma WaitsStep(t: seq<Event>, n: nat, line: string, rest: seq<Event>)
    requires t == [Numbered(n, line), Wait] + rest
    ensures Waits(t) == 1 + Waits(rest)
  {
    assert t[1..] == [Wait] + rest;
    assert t[1..][1..] == rest;
  }

  /** A numbered line and its wait add no header. */
  lemma HeadersStep(t: seq<Event>, n: nat, line: string, rest: seq<Event>)
    requires t == [Numbered(n, line), Wait] + rest
    ensures HeadersOf(t) == HeadersOf(rest)
  {
    assert t[1..] == [Wait] + rest;
    assert t[1..][1..] == rest;
  }

  /** A numbered line and its wait show the line once. */
  lemma ShownStep(t: seq<Event>, n: nat, line: string, rest: seq<Event>)
    requires t == [Numbered(n, line), Wait] + rest
    ensures Shown(t) == [line] + Shown(rest)
  {
    assert t[1..] == [Wait] + rest;
    assert t[1..][1..] == rest;
  }

  /** One wait per numbered line, none per header. */
  lemma {:induction false} TranscriptWaits(lines: seq<string>, jump: Option<string -> bool>, count: nat)
    ensures Waits(Transcript(lines, jump, count)) == |Body(lines, jump)|
    decreases |lines|
  {
    if lines != [] {
      var t := Transcript(lines, jump, count);
      if Jumps(jump, lines[0]) {
        TranscriptWaits(lines[1..], jump, count);
        assert t[1..] == Transcript(lines[1..], jump, count);
      } else {
        var rest := Transcript(lines[1..], jump, count + 1);
        TranscriptWaits(lines[1..], jump, count + 1);
        WaitsStep(t, count + 1, lines[0], rest);
      }
    }
  }

  /** The header events are exactly the lines jump accepts, in order. */
  lemma {:induction false} TranscriptHeaders(lines: seq<string>, jump: Option<string -> bool>, count: nat)
    ensures HeadersOf(Transcript(lines, jump, count)) == Headers(lines, jump)
    decreases |lines|
  {
    if lines != [] {
      var t := Transcript(lines, jump, count);
      if Jumps(jump, lines[0]) {
        TranscriptHeaders(lines[1..], jump, count);
        assert t[1..] == Transcript(lines[1..], jump, count);
      } else {
        var rest := Transcript(lines[1..], jump, count + 1);
        TranscriptHeaders(lines[1..], jump, count + 1);
        HeadersStep(t, count + 1, lines[0], rest);
      }
    }
  }

  /** Every line is shown exactly once, in order. */
  lemma {:induction false} TranscriptShowsAll(lines: seq<string>, jump: Option<string -> bool>, count: nat)
    ensures Shown(Transcript(lines, jump, count)) == lines
    decreases |lines|
  {
    if lines != [] {
      var t := Transcript(lines, jump, count);
      if Jumps(jump, lines[0]) {
        TranscriptShowsAll(lines[1..], jump, count);
        assert t[1..] == Transcript(lines[1..], jump, count);
      } else {
        var rest := Transcript(lines[1..], jump, count + 1);
        TranscriptShowsAll(lines[1..], jump, count + 1);
        ShownStep(t, count + 1, lines[0], rest);
      }
      assert lines == [lines[0]] + lines[1..];
    }
  }

  /** Waits are paired with numbered lines: a numbered event is always
      followed directly by a wait, and a wait always comes directly after
      a numbered event. */
  lemma {:induction false} TranscriptPairs(lines: seq<string>, jump: Option<string -> bool>, count: nat)
    ensures forall i :: 0 <= i < |Transcript(lines, jump, count)| && Transcript(lines, jump, count)[i].Numbered? ==>
      i + 1 < |Transcript(lines, jump, count)| && Transcript(lines, jump, count)[i + 1] == Wait
    ensures forall i :: 0 <= i < |Transcript(lines, jump, count)| && Transcript(lines, jump, count)[i] == Wait ==>
      i > 0 && Transcript(lines, jump, count)[i - 1].Numbered?
    decreases |lines|
  {
    if lines != [] {
      var t := Transcript(lines, jump, count);
      if Jumps(jump, lines[0]) {
        var rest := Transcript(lines[1..], jump, count);
        TranscriptPairs(lines[1..], jump, count);
        assert t == [Header(lines[0])] + rest;
        forall i | 1 <= i < |t|
          ensures t[i] == rest[i - 1]
        {
        }
        assert t[0].Header?;
      } else {
        var rest := Transcript(lines[1..], jump, count + 1);
        TranscriptPairs(lines[1..], jump, count + 1);
        assert t == [Numbered(count + 1, lines[0]), Wait] + rest;
        forall i | 2 <= i < |t|
          ensures t[i] == rest[i - 2]
        {
        }
        assert t[0].Numbered? && t[1] == Wait;
      }
    }
  }

  /** Paging with no jump predicate numbers every line. */
  lemma {:induction false} NoJumpNumbersAll(lines: seq<string>)
    ensures Body(lines, None) == lines
    ensures Headers(lines, None) == []
    decreases |lines|
  {
    if lines != [] {
      NoJumpNumbersAll(lines[1..]);
      assert lines == [lines[0]] + lines[1..];
    }
  }
}

=== FILE: reservoir.dfy ===
/** `random_item` (taoup.py): reservoir sampling of one item. The random
    number generator is an explicit oracle: draw i is the value
    `random.randint(0, i)` returned while item i was visited. */
module Reservoir {
  import opened Optional

  /** Draw i lies in [0, i], the range of `random.randint(0, i)`. */
  predicate ValidDraws(draws: seq<nat>) {
    forall i :: 0 <= i < |draws| ==> draws[i] <= i
  }

  /** The index of the last zero draw: the item the reservoir holds at the end. */
  function LastZero(draws: seq<nat>): (r: Option<nat>)
    ensures r.Some? ==> r.value < |draws| && draws[r.value] == 0
    ensures r.Some? ==> forall j :: r.value < j < |draws| ==> draws[j] != 0
    ensures r.None? <==> forall j :: 0 <= j < |draws| ==> draws[j] != 0
    decreases |draws|
  {
    if draws == [] then None
    else if draws[|draws| - 1] == 0 then Some(|draws| - 1)
    else LastZero(draws[..|draws| - 1])
  }

  /** The first draw is `randint(0, 0) == 0`, so a non-empty run always
      ends holding some item. */
  lemma FirstIsCandidate(draws: seq<nat>)
    requires ValidDraws(draws)
    ensures LastZero(draws).None? <==> draws == []
  {
    if draws != [] {
      assert draws[0] <= 0;
    }
  }

  /** The item `random_item` returns for these draws: None for no items,
      otherwise the item at the last index whose draw was 0. */
  function Pick<T>(items: seq<T>, draws: seq<nat>): (r: Option<T>)
    requires |draws| == |items| && ValidDraws(draws)
    ensures r.None? <==> items == []
    ensures r.Some? ==> r.value in items
  {
    FirstIsCandidate(draws);
    match LastZero(draws)
    case None => None
    case Some(k) => Some(items[k])
  }

  /** The loop of `random_item`: one pass, one draw per item, keeping the
      current item whenever its draw is 0. */
  method RandomItem<T>(items: seq<T>, draws: seq<nat>) returns (choice: Option<T>)
    requires |draws| == |items| && ValidDraws(draws)
    ensures choice == Pick(items, draws)
    ensures choice.None? <==> items == []
  {
    choice := None;
    for i := 0 to |items|
      invariant choice == match LastZero(draws[..i]) case None => None case Some(k) => Some(items[k])
    {
      assert draws[..i + 1][..i] == draws[..i];
      if draws[i] == 0 {
        choice := Some(items[i]);
      }
    }
    assert draws[..|items|] == draws;
  }
}

=== FILE: script.dfy ===
/** Statements of the upstream script written from their texts: the inverse
    direction of the extractor, and the worked examples of its behaviour. */
module Script {
  import opened Optional
  import opened Text
  import opened Extractor

  /** A string literal of the upstream script: its text and its delimiter. */
  datatype Literal = Literal(text: string, delimiter: char)

  /** A literal the pattern matches and the extractor restores exactly: a
      non-empty text without backslashes, in either kind of quotes. */
  predicate Writable(l: Literal) {
    IsDelimiter(l.delimiter) && l.text != [] && '\\' !in l.text
  }

  /** How a literal body is written: each delimiter q becomes `\q`. */
  function Escape(t: string, q: char): (r: string)
    decreases |t|
  {
    if t == [] then []
    else if t[0] == q then ['\\'] + ([q] + Escape(t[1..], q))
    else [t[0]] + Escape(t[1..], q)
  }

  /** The literal as it appears in the script, delimiters included. */
  function Quoted(l: Literal): (r: string)
    ensures |r| >= 2 && r[0] == l.delimiter && r[|r| - 1] == l.delimiter
  {
    [l.delimiter] + Escape(l.text, l.delimiter) + [l.delimiter]
  }

  /** The arguments of a `puts` statement: each literal after one space. */
  function Arguments(ls: seq<Literal>): string
    decreases |ls|
  {
    if ls == [] then [] else " " + Quoted(ls[0]) + Arguments(ls[1..])
  }

  /** A `puts` statement printing the given literals. */
  function Statement(ls: seq<Literal>): string {
    "puts" + Arguments(ls)
  }

  /** The texts of the literals, in order. */
  function Texts(ls: seq<Literal>): (r: seq<string>)
    ensures |r| == |ls|
    ensures forall k :: 0 <= k < |ls| ==> r[k] == ls[k].text
    decreases |ls|
  {
    if ls == [] then [] else [ls[0].text] + Texts(ls[1..])
  }

  lemma {:induction false} EscapeIsBody(t: string, q: char)
    requires '\\' !in t && IsDelimiter(q)
    ensures IsBody(Escape(t, q), q)
    decreases |t|
  {
    if t != [] {
      EscapeIsBody(t[1..], q);
      var e := Escape(t, q);
      if t[0] == q {
        assert e[2..] == Escape(t[1..], q);
      } else {
        assert e[1..] == Escape(t[1..], q);
      }
    }
  }

  /** Replacing `\q` by q where the body starts with an escaped q. */
  lemma ReplaceEscapedFront(t: string, q: char)
    requires t != [] && t[0] == q
    ensures ReplaceAll(Escape(t, q), ['\\', q], [q]) == [q] + ReplaceAll(Escape(t[1..], q), ['\\', q], [q])
  {
    var s := Escape(t, q);
    var rest := Escape(t[1..], q);
    assert s == ['\\'] + ([q] + rest);
    assert |s| >= 2 && s[0] == '\\' && s[1] == q;
    assert ['\\', q] <= s;
    assert s[2..] == rest;
  }

  /** Replacing `\p` by p leaves an escaped q alone when p differs from q. */
  lemma ReplaceOtherFront(t: string, q: char, p: char)
    requires t != [] && t[0] == q && p != q && IsDelimiter(q)
    ensures ReplaceAll(Escape(t, q), ['\\', p], [p]) ==
      ['\\'] + ([q] + ReplaceAll(Escape(t[1..], q), ['\\', p], [p]))
  {
    var pat := ['\\', p];
    var rest := Escape(t[1..], q);
    ReplaceSkip(q, rest, pat, [p]);
    ReplaceSkip('\\', [q] + rest, pat, [p]);
  }

  /** Replacing `\p` by p copies a character that is neither q nor a
      backslash. */
  lemma ReplacePlainFront(t: string, q: char, p: char)
    requires t != [] && t[0] != q && t[0] != '\\'
    ensures ReplaceAll(Escape(t, q), ['\\', p], [p]) == [t[0]] + ReplaceAll(Escape(t[1..], q), ['\\', p], [p])
  {
    var pat := ['\\', p];
    var rest := Escape(t[1..], q);
    assert Escape(t, q) == [t[0]] + rest;
    ReplaceSkip(t[0], rest, pat, [p]);
  }

  /** Replacing `\q` by q undoes the escaping of the delimiter q. */
  lemma {:induction false} UnescapeOwn(t: string, q: char)
    requires '\\' !in t && IsDelimiter(q)
    ensures ReplaceAll(Escape(t, q), ['\\', q], [q]) == t
    decreases |t|
  {
    if t != [] {
      UnescapeOwn(t[1..], q);
      if t[0] == q {
        ReplaceEscapedFront(t, q);
      } else {
        assert t[0] != '\\' by { assert t[0] in t; }
        ReplacePlainFront(t, q, q);
      }
      assert t == [t[0]] + t[1..];
    }
  }

  /** Replacing `\p` by p, for the other delimiter p, changes nothing in a
      body escaped for q. */
  lemma {:induction false} UnescapeOther(t: string, q: char, p: char)
    requires '\\' !in t && IsDelimiter(q) && p != q
    ensures ReplaceAll(Escape(t, q), ['\\', p], [p]) == Escape(t, q)
    decreases |t|
  {
    if t != [] {
      UnescapeOther(t[1..], q, p);
      if t[0] == q {
        ReplaceOtherFront(t, q, p);
      } else {
        assert t[0] != '\\' by { assert t[0] in t; }
        ReplacePlainFront(t, q, p);
      }
    }
  }

  /** The extractor's unescaping inverts the escaping of either delimiter. */
  lemma UnescapeEscape(t: string, q: char)
    requires '\\' !in t && IsDelimiter(q)
    ensures Unescape(Escape(t, q)) == t
  {
    assert "\\\"" == ['\\', '"'] && "\\'" == ['\\', '\''];
    if q == '"' {
      UnescapeOwn(t, q);
      ReplaceAbsent(t, "\\'", "'");
    } else {
      UnescapeOther(t, q, '"');
      UnescapeOwn(t, q);
    }
  }

  /** A writable literal is matched in full, whatever follows it. */
  lemma QuotedMatches(l: Literal, rest: string)
    requires Writable(l)
    ensures MatchLength(Quoted(l) + rest) == Some(|Quoted(l)|)
  {
    var w := Quoted(l);
    var s := w + rest;
    var m := |w|;
    EscapeIsBody(l.text, l.delimiter);
    assert Escape(l.text, l.delimiter) != [];
    assert s[1..m - 1] == Escape(l.text, l.delimiter);
    assert s[m - 1] == w[m - 1];
    MatchLengthSpec(s, m);
  }

  /** The matches on the arguments of a statement are exactly its literals. */
  lemma {:induction false} ArgumentsParts(ls: seq<Literal>)
    requires forall k :: 0 <= k < |ls| ==> Writable(ls[k])
    ensures Parts(FindAll(Arguments(ls))) == Texts(ls)
    decreases |ls|
  {
    if ls != [] {
      var w := Quoted(ls[0]);
      var rest := Arguments(ls[1..]);
      assert Arguments(ls) == " " + (w + rest);
      FindAllSkips(" ", w + rest);
      QuotedMatches(ls[0], rest);
      assert (w + rest)[..|w|] == w && (w + rest)[|w|..] == rest;
      assert FindAll(w + rest) == [w] + FindAll(rest);
      ArgumentsParts(ls[1..]);
      assert w[1..|w| - 1] == Escape(ls[0].text, ls[0].delimiter);
      UnescapeEscape(ls[0].text, ls[0].delimiter);
      assert Part(w) == ls[0].text;
    }
  }

  /** A recognised line yields the strip of its joined parts, if non-empty. */
  lemma ExtractLineOfParts(line: string, parts: seq<string>)
    requires "puts " <= Strip(line) && Parts(FindAll(line)) == parts
    ensures ExtractLine(line) == if Strip(Concat(parts)) == [] then None else Some(Strip(Concat(parts)))
  {
  }

  /** A text with no whitespace at either end is its own strip. */
  lemma StripUnchanged(s: string)
    requires s != [] && !IsSpace(s[0]) && !IsSpace(s[|s| - 1])
    ensures Strip(s) == s
  {
    StripCharacterised([], s, []);
    assert [] + s + [] == s;
  }

  /** The `puts` keyword, with or without its following space, contains no
      delimiter, so it contributes no match. */
  lemma FindAllAfterKeyword(w: string)
    ensures FindAll("puts" + w) == FindAll(w)
    ensures FindAll("puts " + w) == FindAll(w)
  {
    FindAllSkips("puts", w);
    FindAllSkips("puts ", w);
  }

  /** The parts of a statement are the texts of its literals. */
  lemma StatementParts(ls: seq<Literal>)
    requires forall k :: 0 <= k < |ls| ==> Writable(ls[k])
    ensures Parts(FindAll(Statement(ls))) == Texts(ls)
  {
    FindAllAfterKeyword(Arguments(ls));
    ArgumentsParts(ls);
  }

  /** A statement with at least one literal is its own strip and starts
      with the `puts ` keyword. */
  lemma StatementStripped(ls: seq<Literal>)
    requires ls != [] && forall k :: 0 <= k < |ls| ==> Writable(ls[k])
    ensures Strip(Statement(ls)) == Statement(ls) && "puts " <= Statement(ls)
  {
    var line := Statement(ls);
    var a := Arguments(ls);
    LastOfArguments(ls);
    assert line == "puts" + a;
    assert line[|line| - 1] == a[|a| - 1];
    assert a[0] == ' ';
    StripUnchanged(line);
  }

  /** The round trip for a statement of at least one writable literal. */
  lemma ExtractNonEmptyStatement(ls: seq<Literal>)
    requires ls != [] && forall k :: 0 <= k < |ls| ==> Writable(ls[k])
    ensures ExtractLine(Statement(ls)) ==
      if AllSpace(Concat(Texts(ls))) then None else Some(Strip(Concat(Texts(ls))))
  {
    StatementParts(ls);
    StatementStripped(ls);
    ExtractLineOfParts(Statement(ls), Texts(ls));
  }

  /** Round trip: a `puts` statement of writable literals, in any mix of
      quote kinds, yields their texts joined left to right and stripped, or
      nothing when that is blank. */
  lemma ExtractStatement(ls: seq<Literal>)
    requires forall k :: 0 <= k < |ls| ==> Writable(ls[k])
    ensures ExtractLine(Statement(ls)) ==
      if AllSpace(Concat(Texts(ls))) then None else Some(Strip(Concat(Texts(ls))))
  {
    if ls == [] {
      ExampleBareCommand(Statement(ls));
    } else {
      ExtractNonEmptyStatement(ls);
    }
  }

  /** The arguments of a statement end with a closing delimiter. */
  lemma {:induction false} LastOfArguments(ls: seq<Literal>)
    requires ls != [] && forall k :: 0 <= k < |ls| ==> Writable(ls[k])
    ensures var a := Arguments(ls); a != [] && IsDelimiter(a[|a| - 1])
    decreases |ls|
  {
    var w := Quoted(ls[0]);
    var a := Arguments(ls);
    if ls[1..] == [] {
      assert Arguments(ls[1..]) == [];
      assert a == " " + w + [];
    } else {
      LastOfArguments(ls[1..]);
      assert a == (" " + w) + Arguments(ls[1..]);
    }
  }

  /** `puts "a" 'b'` is the statement written from the literals `a` and `b`. */
  lemma TwoPartsStatement(line: string, quote: string)
    requires line == "puts \"a\" 'b'" && quote == "ab"
    ensures Statement([Literal(quote[..1], '"'), Literal(quote[1..], '\'')]) == line
  {
    var ls := [Literal(quote[..1], '"'), Literal(quote[1..], '\'')];
    assert Escape(quote[..1], '"') == quote[..1];
    assert Escape(quote[1..], '\'') == quote[1..];
    assert Arguments(ls[1..]) == " " + Quoted(ls[1]) by {
      assert ls[1..][1..] == [];
    }
  }

  /** The example of a line with two parts: `puts "a" 'b'` yields `ab`. */
  lemma ExampleTwoParts(line: string, quote: string)
    requires line == "puts \"a\" 'b'" && quote == "ab"
    ensures ExtractLine(line) == Some(quote)
  {
    var ls := [Literal(quote[..1], '"'), Literal(quote[1..], '\'')];
    TwoPartsStatement(line, quote);
    assert Concat(Texts(ls)) == quote by {
      assert Texts(ls) == [quote[..1]] + [quote[1..]];
      ConcatAppend([quote[..1]], [quote[1..]]);
      assert quote[..1] + quote[1..] == quote;
    }
    StripUnchanged(quote);
    assert !IsSpace(quote[0]);
    ExtractStatement(ls);
  }

  /** `puts "a\"b"` is the statement written from the literal `a"b`. */
  lemma EscapedQuoteStatement(line: string, quote: string)
    requires line == "puts \"a\\\"b\"" && quote == "a\"b"
    ensures Statement([Literal(quote, '"')]) == line
  {
    var ls := [Literal(quote, '"')];
    assert Escape(quote, '"') == "a\\\"b" by {
      assert quote[1..] == "\"b" && quote[2..] == "b" && quote[3..] == [];
      assert Escape(quote[3..], '"') == [];
      assert Escape(quote[2..], '"') == "b";
      assert Escape(quote[1..], '"') == "\\\"b";
    }
    assert Arguments(ls) == " " + Quoted(ls[0]) by {
      assert ls[1..] == [];
    }
  }

  /** The example of an escaped quote: `puts "a\"b"` yields `a"b`. */
  lemma ExampleEscapedQuote(line: string, quote: string)
    requires line == "puts \"a\\\"b\"" && quote == "a\"b"
    ensures ExtractLine(line) == Some(quote)
  {
    var ls := [Literal(quote, '"')];
    EscapedQuoteStatement(line, quote);
    assert Concat(Texts(ls)) == quote by {
      assert Texts(ls) == [quote] + [];
      ConcatAppend([quote], []);
    }
    StripUnchanged(quote);
    assert !IsSpace(quote[0]);
    ExtractStatement(ls);
  }

  /** A bare `puts` with no trailing space is not a statement the extractor
      recognises. */
  lemma ExampleBareCommand(line: string)
    requires line == "puts"
    ensures ExtractLine(line) == None
  {
    StripUnchanged(line);
  }

  /** Nor is `puts` glued to its argument. */
  lemma ExampleGluedCommand(line: string)
    requires line == "puts\"a\""
    ensures ExtractLine(line) == None
  {
    StripUnchanged(line);
    assert line[4] != ' ';
  }

  /** An unterminated quote is skipped silently. */
  lemma ExampleUnterminated(line: string)
    requires line == "puts \"abc"
    ensures ExtractLine(line) == None
  {
    StripUnchanged(line);
    var s, body := line[5..], line[6..];
    assert line == "puts " + s;
    assert s[0] == '"' && s[1..] == body && body == "abc";
    FindAllSkips("puts ", s);
    UnterminatedNoMatch(s);
    assert FindAll(s) == FindAll(body);
    FindAllSkips(body, []);
    assert body + [] == body;
    assert FindAll(line) == [];
    ExtractLineOfParts(line, []);
  }

  /** An empty literal is no match, so the scan moves on by one character:
      its closing quote opens a match with the following space, and the
      next literal loses its opening quote and is never matched. A line
      `puts "" "a"` yields nothing, whatever delimiter-free text a holds. */
  lemma EmptyFirstLiteral(a: string)
    requires forall i :: 0 <= i < |a| ==> !IsDelimiter(a[i])
    ensures ExtractLine("puts " + ("\"" + ("\" \"" + (a + "\"")))) == None
  {
    var line := "puts " + ("\"" + ("\" \"" + (a + "\"")));
    var span := "\" \"";
    EmptyFirstLiteralMatches(a);
    assert line[0] == 'p' && line[|line| - 1] == '"';
    StripUnchanged(line);
    var part := span[1..2];
    assert part == " " && !HasPair(part, '\\', '"') && !HasPair(part, '\\', '\'');
    assert Part(span) == part;
    ConcatOne(part);
    assert AllSpace(part);
    ExtractLineOfParts(line, [part]);
  }

  /** The only match on such a line is the closing quote of the empty
      literal, the space and the opening quote of the next one. */
  lemma EmptyFirstLiteralMatches(a: string)
    requires forall i :: 0 <= i < |a| ==> !IsDelimiter(a[i])
    ensures FindAll("puts " + ("\"" + ("\" \"" + (a + "\"")))) == ["\" \""]
  {
    var span, rest := "\" \"", a + "\"";
    var s1 := span + rest;
    calc {
      FindAll("puts " + ("\"" + s1));
    == { FindAllAfterKeyword("\"" + s1); }
      FindAll("\"" + s1);
    == { EmptyLiteralSkipped(s1); }
      FindAll(s1);
    == { SpaceBetweenQuotesMatches(rest); }
      [span] + FindAll(rest);
    == { UnterminatedTail(a); }
      [span] + [];
    ==
      [span];
    }
  }

  /** An opening quote followed by the same quote starts no match. */
  lemma EmptyLiteralSkipped(t: string)
    requires t != [] && t[0] == '"'
    ensures FindAll("\"" + t) == FindAll(t)
  {
    var s := "\"" + t;
    EmptyQuotesNoMatch(s);
    FindAllPast(s);
    assert s[1..] == t;
  }

  /** A space between two quotes is a match of its own. */
  lemma SpaceBetweenQuotesMatches(rest: string)
    ensures FindAll("\" \"" + rest) == ["\" \""] + FindAll(rest)
  {
    var span := "\" \"";
    var s := span + rest;
    assert s[..3] == span && s[3..] == rest;
    assert MatchesAt(s, 3) by {
      assert s[1..2] == " " && s[1..2][1..] == [];
    }
    MatchLengthSpec(s, 3);
    FindAllAt(s, 3);
  }

  /** Delimiter-free text and a final quote with nothing after it give no
      match. */
  lemma UnterminatedTail(a: string)
    requires forall i :: 0 <= i < |a| ==> !IsDelimiter(a[i])
    ensures FindAll(a + "\"") == []
  {
    var close := "\"";
    FindAllSkips(a, close);
    UnterminatedNoMatch(close);
    FindAllPast(close);
    assert FindAll(close[1..]) == [];
  }

  /** The example of an empty first literal: `puts "" "abc"` yields nothing. */
  lemma ExampleEmptyFirstLiteral(line: string)
    requires line == "puts \"\" \"abc\""
    ensures ExtractLine(line) == None
  {
    EmptyFirstLiteralLine(line);
    EmptyFirstLiteral("abc");
  }

  /** The example line in the nested form the general lemma speaks of;
      stated separately only to keep the example's proof cheap for the
      solver. */
  lemma EmptyFirstLiteralLine(line: string)
    requires line == "puts \"\" \"abc\""
    ensures line == "puts " + ("\"" + ("\" \"" + ("abc" + "\"")))
  {
  }

  /** The replacement of `\"` can take the second backslash of a `\\` pair:
      in `puts '\\"'` the body `\\"` comes out as `\"`, so a backslash
      sequence other than the two escapes is not always kept. */
  lemma ExampleBackslashBeforeQuote(line: string)
    requires line == "puts '\\\\\"'"
    ensures ExtractLine(line) == Some("\\\"")
  {
    var quote := "\\\"";
    BackslashLineParts(line, quote);
    StripUnchanged(line);
    ConcatOne(quote);
    StripUnchanged(quote);
    ExtractLineOfParts(line, [quote]);
  }

  /** The line's one part is the body with `\"` replaced. */
  lemma BackslashLineParts(line: string, quote: string)
    requires line == "puts '\\\\\"'" && quote == "\\\""
    ensures Parts(FindAll(line)) == [quote]
  {
    var body := "\\\\\"";
    var span := "'" + (body + "'");
    assert line == "puts " + span;
    FindAllAfterKeyword(span);
    BackslashSpanMatches(body);
    assert span[1..|span| - 1] == body;
    UnescapeStep(body, quote);
  }

  /** The literal `'\\"'` is one match: `\\` is an escape token and `"` an
      ordinary character inside single quotes. */
  lemma BackslashSpanMatches(body: string)
    requires body == "\\\\\""
    ensures FindAll("'" + (body + "'")) == ["'" + (body + "'")]
  {
    var span := "'" + (body + "'");
    assert |span| == 5 && span[0] == '\'' && span[4] == '\'' && span[1..4] == body;
    assert IsBody(body, '\'') by {
      assert body[0] == '\\' && body[1] == '\\';
      assert body[2..] == "\"" && body[2..][1..] == [];
    }
    MatchLengthSpec(span, 5);
    FindAllAt(span, 5);
    assert span[..5] == span && span[5..] == [];
  }

  /** The two replacements on the body `\\"`: the first rewrites its tail
      `\"` to `"`, the second finds nothing to do. */
  lemma UnescapeStep(body: string, quote: string)
    requires body == "\\\\\"" && quote == "\\\""
    ensures Unescape(body) == quote
  {
    var pat := "\\\"";
    assert body == [body[0]] + body[1..] && body[1..] == pat;
    ReplaceSkip(body[0], body[1..], pat, "\"");
    assert pat[2..] == [];
    assert ReplaceAll(body[1..], pat, "\"") == "\"";
    assert ReplaceAll(body, pat, "\"") == quote;
    ReplaceAbsent(quote, "\\'", "'");
  }
}

=== FILE: taoup.dfy ===
/** The glue in `main`: the header predicate, random mode over the
    non-header quotes, paging with headers as jumps, and the cache the
    first run writes and later runs read. */
module Taoup {
  import opened Optional
  import opened Text
  import Extractor
  import Cache
  import Reservoir
  import Pager

  /** `line.startswith('-----')`: section headers of the quote list start
      with five dashes. */
  predicate IsHeader(line: string)
    ensures IsHeader(line) <==> |line| >= 5 && forall i :: 0 <= i < 5 ==> line[i] == '-'
  {
    "-----" <= line
  }

  /** The quotes random mode chooses among: the non-header ones, in order. */
  function Candidates(quotes: seq<string>): (r: seq<string>)
    ensures |r| <= |quotes|
    ensures forall k :: 0 <= k < |r| ==> r[k] in quotes && !IsHeader(r[k])
    ensures forall k :: 0 <= k < |quotes| && !IsHeader(quotes[k]) ==> quotes[k] in r
    decreases |quotes|
  {
    if quotes == [] then []
    else if IsHeader(quotes[0]) then Candidates(quotes[1..])
    else [quotes[0]] + Candidates(quotes[1..])
  }

  /** Random mode's choice, given one draw per candidate: never a header,
      always one of the quotes, and absent only when every quote is a
      header. */
  function RandomQuote(quotes: seq<string>, draws: seq<nat>): (r: Option<string>)
    requires |draws| == |Candidates(quotes)| && Reservoir.ValidDraws(draws)
    ensures r.Some? ==> r.value in quotes && !IsHeader(r.value)
    ensures r.None? <==> forall k :: 0 <= k < |quotes| ==> IsHeader(quotes[k])
  {
    var candidates := Candidates(quotes);
    assert candidates != [] ==> candidates[0] in quotes;
    Reservoir.Pick(candidates, draws)
  }

  /** What random mode prints: the chosen quote, unless there is none or
      it is empty. */
  function RandomMode(quotes: seq<string>, draws: seq<nat>): (r: Option<string>)
    requires |draws| == |Candidates(quotes)| && Reservoir.ValidDraws(draws)
    ensures r.Some? ==> r.value != [] && r.value in quotes && !IsHeader(r.value)
    ensures (forall k :: 0 <= k < |quotes| ==> quotes[k] != []) ==>
      (r.None? <==> forall k :: 0 <= k < |quotes| ==> IsHeader(quotes[k]))
  {
    match RandomQuote(quotes, draws)
    case Some(q) => if q != [] then Some(q) else None
    case None => None
  }

  /** All mode, `all(quotes, jump=is_header)`: every quote is shown once, in
      order; header events carry exactly the header quotes and numbered
      events exactly the others. */
  function PageAll(quotes: seq<string>): (r: seq<Pager.Event>)
    ensures Pager.Shown(r) == quotes
    ensures forall i :: 0 <= i < |r| && r[i].Header? ==> IsHeader(r[i].text)
    ensures forall i :: 0 <= i < |r| && r[i].Numbered? ==> !IsHeader(r[i].text)
  {
    Pager.TranscriptShowsAll(quotes, Some(IsHeader), 0);
    Pager.All(quotes, Some(IsHeader))
  }

  /** The lines paging numbers are exactly random mode's candidates. */
  lemma {:induction false} BodyIsCandidates(quotes: seq<string>)
    ensures Pager.Body(quotes, Some(IsHeader)) == Candidates(quotes)
    decreases |quotes|
  {
    if quotes != [] {
      BodyIsCandidates(quotes[1..]);
    }
  }

  /** Random mode's generator filters piecewise: it keeps every non-header
      quote, each copy, in the order of the list. */
  lemma {:induction false} CandidatesAppend(a: seq<string>, b: seq<string>)
    ensures Candidates(a + b) == Candidates(a) + Candidates(b)
    decreases |a|
  {
    if a == [] {
      assert a + b == b;
    } else {
      assert (a + b)[0] == a[0] && (a + b)[1..] == a[1..] + b;
      CandidatesAppend(a[1..], b);
    }
  }

  /** In all mode the k-th non-header quote is numbered k + 1 and waited
      on once, headers are shown unnumbered and never waited on, and
      every quote is shown once in order. */
  lemma PageAllNumbersNonHeaders(quotes: seq<string>)
    ensures |Pager.NumberedOf(PageAll(quotes))| == |Candidates(quotes)|
    ensures forall k :: 0 <= k < |Candidates(quotes)| ==>
      Pager.NumberedOf(PageAll(quotes))[k] == (k + 1, Candidates(quotes)[k])
    ensures Pager.Waits(PageAll(quotes)) == |Candidates(quotes)|
    ensures Pager.HeadersOf(PageAll(quotes)) == Pager.Headers(quotes, Some(IsHeader))
    ensures Pager.Shown(PageAll(quotes)) == quotes
  {
    var p, c := PageAll(quotes), Candidates(quotes);
    assert p == Pager.Transcript(quotes, Some(IsHeader), 0);
    BodyIsCandidates(quotes);
    Pager.TranscriptNumbers(quotes, Some(IsHeader), 0);
    assert forall k :: 0 <= k < |c| ==> Pager.NumberedOf(p)[k] == (k + 1, c[k]);
    Pager.TranscriptWaits(quotes, Some(IsHeader), 0);
    Pager.TranscriptHeaders(quotes, Some(IsHeader), 0);
    Pager.TranscriptShowsAll(quotes, Some(IsHeader), 0);
  }

  /** Extracted quotes hold no line break when the fetched lines hold none. */
  lemma {:induction false} ExtractedNoBreak(lines: seq<string>)
    requires forall k :: 0 <= k < |lines| ==> NoBreak(lines[k])
    ensures forall k :: 0 <= k < |Extractor.ExtractQuotes(lines)| ==> NoBreak(Extractor.ExtractQuotes(lines)[k])
    decreases |lines|
  {
    if lines != [] {
      ExtractedNoBreak(lines[1..]);
      Extractor.ExtractLineChars(lines[0]);
    }
  }

  /** Dropping blank lines keeps a list with no blank line as it is. */
  lemma {:induction false} NonBlankAll(lines: seq<string>)
    requires forall k :: 0 <= k < |lines| ==> !AllSpace(lines[k])
    ensures Cache.NonBlank(lines) == lines
    decreases |lines|
  {
    if lines != [] {
      NonBlankAll(lines[1..]);
      assert lines == [lines[0]] + lines[1..];
    }
  }

  /** Extracted quotes are never blank, so reading drops none of them. */
  lemma QuotesAreNonBlank(quotes: seq<string>)
    requires forall k :: 0 <= k < |quotes| ==> Extractor.IsQuote(quotes[k])
    ensures Cache.NonBlank(quotes) == quotes
  {
    forall k | 0 <= k < |quotes|
      ensures !AllSpace(quotes[k])
    {
      assert !IsSpace(quotes[k][0]);
    }
    NonBlankAll(quotes);
  }

  /** The first run extracts the quotes and writes the cache; a later run
      reads back every one of them, in order, each with its terminator. */
  lemma CacheKeepsExtractedQuotes(previous: string, lines: seq<string>)
    requires forall k :: 0 <= k < |lines| ==> NoBreak(lines[k])
    ensures Cache.ReadQuotes(Cache.Write(previous, Extractor.ExtractQuotes(lines), false)) ==
      Cache.Terminated(Extractor.ExtractQuotes(lines))
  {
    var quotes := Extractor.ExtractQuotes(lines);
    ExtractedNoBreak(lines);
    QuotesAreNonBlank(quotes);
    Cache.ReadOverwritten(previous, quotes);
  }

  /** A terminator never changes whether a line is a header. */
  lemma HeaderTerminated(q: string)
    ensures IsHeader(q + "\n") <==> IsHeader(q)
  {
    if |q| >= 5 {
      assert (q + "\n")[..5] == q[..5];
    } else {
      assert |q + "\n"| < 5 || (q + "\n")[4] == '\n';
    }
  }

  /** Random mode on a later run chooses among the same quotes as on the
      first run, each now carrying its terminator. */
  lemma {:induction false} CandidatesTerminated(quotes: seq<string>)
    ensures Candidates(Cache.Terminated(quotes)) == Cache.Terminated(Candidates(quotes))
    decreases |quotes|
  {
    if quotes != [] {
      var t := Cache.Terminated(quotes);
      HeaderTerminated(quotes[0]);
      CandidatesTerminated(quotes[1..]);
      assert t[1..] == Cache.Terminated(quotes[1..]);
      assert t[0] == quotes[0] + "\n";
    }
  }

  /** Paging a section header and two quotes: the header is shown with no
      number and no wait, the quotes as (1) and (2), each waited on. */
  lemma PagingExample(lines: seq<string>)
    requires lines == ["-----Section-----", "q1", "q2"]
    ensures PageAll(lines) == [Pager.Header(lines[0]), Pager.Numbered(1, lines[1]), Pager.Wait,
                               Pager.Numbered(2, lines[2]), Pager.Wait]
  {
    var jump := Some(IsHeader);
    assert IsHeader(lines[0]);
    assert !IsHeader(lines[1]) && !IsHeader(lines[2]);
    assert Pager.Transcript(lines[1..][1..][1..], jump, 2) == [];
    assert Pager.Transcript(lines[1..][1..], jump, 1) == [Pager.Numbered(2, lines[2]), Pager.Wait];
    assert Pager.Transcript(lines[1..], jump, 0) ==
      [Pager.Numbered(1, lines[1]), Pager.Wait, Pager.Numbered(2, lines[2]), Pager.Wait];
  }

  /** Writing x, y and z and reading them back gives the three lines with
      their terminators kept. */
  lemma CacheExample(quotes: seq<string>)
    requires quotes == ["x", "y", "z"]
    ensures Cache.ReadQuotes(Cache.Write([], quotes, false)) ==
      [quotes[0] + "\n", quotes[1] + "\n", quotes[2] + "\n"]
  {
    LettersArePlain(quotes);
    ReadBackPlainQuotes(quotes);
    TerminatedThree(quotes);
  }

  /** The terminated three-quote list, element by element; stated
      separately only to keep the example's proof cheap for the solver. */
  lemma TerminatedThree(quotes: seq<string>)
    requires |quotes| == 3
    ensures Cache.Terminated(quotes) == [quotes[0] + "\n", quotes[1] + "\n", quotes[2] + "\n"]
  {
    var r := Cache.Terminated(quotes);
    assert |r| == 3 && r[0] == quotes[0] + "\n" && r[1] == quotes[1] + "\n" && r[2] == quotes[2] + "\n";
  }

  /** The example's quotes are neither blank nor broken across lines. */
  lemma LettersArePlain(quotes: seq<string>)
    requires quotes == ["x", "y", "z"]
    ensures forall k :: 0 <= k < |quotes| ==> NoBreak(quotes[k]) && !AllSpace(quotes[k])
  {
    assert !IsSpace(quotes[0][0]) && !IsSpace(quotes[1][0]) && !IsSpace(quotes[2][0]);
  }

  /** Quotes that are neither blank nor broken across lines all come back
      from a freshly written cache, each with its terminator. */
  lemma ReadBackPlainQuotes(quotes: seq<string>)
    requires forall k :: 0 <= k < |quotes| ==> NoBreak(quotes[k]) && !AllSpace(quotes[k])
    ensures Cache.ReadQuotes(Cache.Write([], quotes, false)) == Cache.Terminated(quotes)
  {
    NonBlankAll(quotes);
    Cache.ReadOverwritten([], quotes);
  }
}

=== FILE: text.dfy ===
/** The Python string primitives the quote tool is built from: whitespace,
    `strip`, `replace` and `join`. A Python `str` is a `seq<char>` here. */
module Text {

  /** Python's `str.isspace` on one code point: exactly the characters that
      `str.strip()` with no argument removes. */
  predicate IsSpace(c: char) {
    var n := c as int;
    || n == 0x20
    || 0x09 <= n <= 0x0D
    || 0x1C <= n <= 0x1F
    || n == 0x85 || n == 0xA0 || n == 0x1680
    || 0x2000 <= n <= 0x200A
    || n == 0x2028 || n == 0x2029 || n == 0x202F || n == 0x205F || n == 0x3000
  }

  /** s is blank: `s.strip()` is the empty (falsy) string. */
  predicate AllSpace(s: string) {
    forall i :: 0 <= i < |s| ==> IsSpace(s[i])
  }

  /** s holds no line terminator that a text-mode file read would split on. */
  predicate NoBreak(s: string) {
    '\n' !in s && '\r' !in s
  }

  /** `s.strip()`. The result has no whitespace at either end, is empty
      exactly when s is blank, and uses only characters of s;
      StripCharacterised shows which infix of s it is. */
  function Strip(s: string): (r: string)
    ensures r == [] || (!IsSpace(r[0]) && !IsSpace(r[|r| - 1]))
    ensures r == [] <==> AllSpace(s)
    ensures forall c :: c in r ==> c in s
    decreases |s|
  {
    if s == [] then []
    else if IsSpace(s[0]) then
      assert AllSpace(s) <==> AllSpace(s[1..]) by {
        assert forall i :: 0 < i < |s| ==> s[i] == s[1..][i - 1];
      }
      Strip(s[1..])
    else if IsSpace(s[|s| - 1]) then
      Strip(s[..|s| - 1])
    else s
  }

  /** Strip(a + m + b) is m whenever a and b are whitespace and m has no
      whitespace at its own ends: the stripped text is the unique infix
      with blank margins. */
  lemma {:induction false} StripCharacterised(a: string, m: string, b: string)
    requires AllSpace(a) && AllSpace(b)
    requires m == [] || (!IsSpace(m[0]) && !IsSpace(m[|m| - 1]))
    ensures Strip(a + m + b) == m
    decreases |a| + |b|
  {
    var s := a + m + b;
    if a != [] {
      assert s[0] == a[0];
      assert s[1..] == a[1..] + m + b;
      StripCharacterised(a[1..], m, b);
    } else if m == [] {
      if b != [] {
        assert s[0] == b[0];
        assert s[1..] == a + m + b[1..];
        StripCharacterised(a, m, b[1..]);
      }
    } else if b != [] {
      assert s[0] == m[0] && s[|s| - 1] == b[|b| - 1];
      assert s[..|s| - 1] == a + m + b[..|b| - 1];
      StripCharacterised(a, m, b[..|b| - 1]);
    } else {
      assert s == m;
    }
  }

  /** `s.replace(pat, rep)` for a non-empty pattern: Python scans left to
      right and replaces non-overlapping occurrences. */
  function ReplaceAll(s: string, pat: string, rep: string): (r: string)
    requires pat != []
    ensures forall c :: c in r ==> c in s || c in rep
    decreases |s|
  {
    if s == [] then []
    else if pat <= s then rep + ReplaceAll(s[|pat|..], pat, rep)
    else [s[0]] + ReplaceAll(s[1..], pat, rep)
  }

  /** A character where the pattern does not start is copied as it is:
      either it differs from the pattern's first character, or what follows
      it differs from the pattern's second one. */
  lemma ReplaceSkip(c: char, rest: string, pat: string, rep: string)
    requires pat != []
    requires c != pat[0] || (|pat| >= 2 && rest != [] && rest[0] != pat[1])
    ensures ReplaceAll([c] + rest, pat, rep) == [c] + ReplaceAll(rest, pat, rep)
  {
    var s := [c] + rest;
    assert s[0] == c;
    assert rest != [] ==> s[1] == rest[0];
    assert !(pat <= s);
    assert s[1..] == rest;
  }

  /** The two-character sequence a b occurs somewhere in s. */
  predicate HasPair(s: string, a: char, b: char) {
    exists i :: 0 <= i < |s| - 1 && s[i] == a && s[i + 1] == b
  }

  /** Replacing a two-character pattern that does not occur changes nothing. */
  lemma {:induction false} ReplaceAbsent(s: string, pat: string, rep: string)
    requires |pat| == 2 && !HasPair(s, pat[0], pat[1])
    ensures ReplaceAll(s, pat, rep) == s
    decreases |s|
  {
    if s != [] && !(pat <= s) {
      assert !HasPair(s[1..], pat[0], pat[1]) by {
        forall i | 0 <= i < |s| - 2
          ensures !(s[1..][i] == pat[0] && s[1..][i + 1] == pat[1])
        {
          assert s[1..][i] == s[i + 1] && s[1..][i + 1] == s[i + 2];
        }
      }
      ReplaceAbsent(s[1..], pat, rep);
    }
  }

  /** `''.join(ps)`. */
  function Concat(ps: seq<string>): (r: string)
    ensures forall c :: c in r ==> exists k :: 0 <= k < |ps| && c in ps[k]
    decreases |ps|
  {
    if ps == [] then [] else ps[0] + Concat(ps[1..])
  }

  /** Joining a single part gives that part. */
  lemma ConcatOne(p: string)
    ensures Concat([p]) == p
  {
    assert [p][1..] == [];
  }

  /** Joining is a homomorphism from sequence concatenation. */
  lemma {:induction false} ConcatAppend(a: seq<string>, b: seq<string>)
    ensures Concat(a + b) == Concat(a) + Concat(b)
    decreases |a|
  {
    if a == [] {
      assert a + b == b;
    } else {
      assert (a + b)[1..] == a[1..] + b;
      ConcatAppend(a[1..], b);
    }
  }
}

=== FILE: uniformity.dfy ===
/** The reservoir guarantee `random_item` relies on, in counting form:
    over all n! equally likely draw vectors of length n, each index is
    selected by exactly (n-1)! of them, that is with probability 1/n. */
module Uniformity {
  import opened Optional
  import opened Reservoir

  function Factorial(n: nat): (r: nat)
    ensures r >= 1
  {
    if n == 0 then 1 else n * Factorial(n - 1)
  }

  /** The draw vectors v + [0], v + [1], ..., v + [m - 1]. */
  function Row(v: seq<nat>, m: nat): (r: seq<seq<nat>>)
    ensures |r| == m
  {
    if m == 0 then [] else Row(v, m - 1) + [v + [m - 1]]
  }

  lemma {:induction false} RowElements(v: seq<nat>, m: nat)
    ensures forall x :: 0 <= x < m ==> Row(v, m)[x] == v + [x]
  {
    if m > 0 {
      RowElements(v, m - 1);
    }
  }

  /** Every vector of vs extended by each next draw in [0, n]. */
  function Extend(vs: seq<seq<nat>>, n: nat): seq<seq<nat>>
    decreases |vs|
  {
    if vs == [] then [] else Row(vs[0], n + 1) + Extend(vs[1..], n)
  }

  /** Every possible draw vector of length n, listed once each. */
  function AllDraws(n: nat): seq<seq<nat>> {
    if n == 0 then [[]] else Extend(AllDraws(n - 1), n - 1)
  }

  lemma {:induction false} ExtendLength(vs: seq<seq<nat>>, n: nat)
    ensures |Extend(vs, n)| == (n + 1) * |vs|
    decreases |vs|
  {
    if vs != [] {
      ExtendLength(vs[1..], n);
    }
  }

  /** There are n! draw vectors of length n. */
  lemma {:induction false} AllDrawsLength(n: nat)
    ensures |AllDraws(n)| == Factorial(n)
  {
    if n > 0 {
      AllDrawsLength(n - 1);
      ExtendLength(AllDraws(n - 1), n - 1);
    }
  }

  /** How many of the vectors select index k. */
  function CountPicks(vs: seq<seq<nat>>, k: nat): (r: nat)
    ensures r <= |vs|
    decreases |vs|
  {
    if vs == [] then 0
    else (if LastZero(vs[0]) == Some(k) then 1 else 0) + CountPicks(vs[1..], k)
  }

  predicate NoDuplicates(s: seq<seq<nat>>) {
    forall i, j :: 0 <= i < j < |s| ==> s[i] != s[j]
  }

  lemma {:induction false} CountPicksAppend(a: seq<seq<nat>>, b: seq<seq<nat>>, k: nat)
    ensures CountPicks(a + b, k) == CountPicks(a, k) + CountPicks(b, k)
    decreases |a|
  {
    if a == [] {
      assert a + b == b;
    } else {
      assert (a + b)[1..] == a[1..] + b;
      CountPicksAppend(a[1..], b, k);
    }
  }

  /** Appending a draw x selects the new index when x is 0 and leaves the
      selection as it was otherwise. */
  lemma LastZeroExtend(v: seq<nat>, x: nat)
    ensures LastZero(v + [x]) == if x == 0 then Some(|v|) else LastZero(v)
  {
    assert (v + [x])[..|v|] == v;
  }

  /** Among the extensions of one vector v by a draw in [0, m - 1], only
      the zero draw selects the new index |v|; the other m - 1 keep v's
      selection. */
  lemma {:induction false} CountPicksRow(v: seq<nat>, m: nat, k: nat)
    requires m >= 1
    ensures CountPicks(Row(v, m), k) ==
      if k == |v| then 1 else if LastZero(v) == Some(k) then m - 1 else 0
  {
    if m == 1 {
      assert Row(v, 1) == [v + [0]];
      LastZeroExtend(v, 0);
    } else {
      CountPicksRow(v, m - 1, k);
      CountPicksAppend(Row(v, m - 1), [v + [m - 1]], k);
      LastZeroExtend(v, m - 1);
    }
  }

  /** c copies of n added up: multiplication by repeated addition, so that
      the counting proofs stay within linear arithmetic. */
  function Times(n: nat, c: nat): nat
    decreases c
  {
    if c == 0 then 0 else n + Times(n, c - 1)
  }

  lemma {:induction false} TimesIsProduct(n: nat, c: nat)
    ensures Times(n, c) == n * c
    decreases c
  {
    if c > 0 {
      TimesIsProduct(n, c - 1);
    }
  }

  /** Extending vectors of length n selects the new index n once per
      vector: by its zero draw. */
  lemma {:induction false} CountPicksExtendNew(vs: seq<seq<nat>>, n: nat)
    requires forall i :: 0 <= i < |vs| ==> |vs[i]| == n
    ensures CountPicks(Extend(vs, n), n) == |vs|
    decreases |vs|
  {
    if vs != [] {
      CountPicksAppend(Row(vs[0], n + 1), Extend(vs[1..], n), n);
      CountPicksRow(vs[0], n + 1, n);
      CountPicksExtendNew(vs[1..], n);
    }
  }

  /** Extending vectors of length n keeps each earlier selection under
      all n non-zero draws. */
  lemma {:induction false} CountPicksExtendOld(vs: seq<seq<nat>>, n: nat, k: nat)
    requires forall i :: 0 <= i < |vs| ==> |vs[i]| == n
    requires k != n
    ensures CountPicks(Extend(vs, n), k) == Times(n, CountPicks(vs, k))
    decreases |vs|
  {
    if vs != [] {
      CountPicksAppend(Row(vs[0], n + 1), Extend(vs[1..], n), k);
      CountPicksRow(vs[0], n + 1, k);
      CountPicksExtendOld(vs[1..], n, k);
    }
  }

  /** Membership: a vector is in Row(v, m) iff it is v plus one draw below m. */
  lemma RowMembers(v: seq<nat>, m: nat, w: seq<nat>)
    ensures w in Row(v, m) <==> |w| == |v| + 1 && w[..|v|] == v && w[|v|] < m
  {
    var r := Row(v, m);
    RowElements(v, m);
    if |w| == |v| + 1 && w[..|v|] == v && w[|v|] < m {
      assert w == v + [w[|v|]];
      assert r[w[|v|]] == w;
    }
  }

  lemma {:induction false} ExtendMembers(vs: seq<seq<nat>>, n: nat, w: seq<nat>)
    ensures w in Extend(vs, n) <==> |w| > 0 && w[..|w| - 1] in vs && w[|w| - 1] <= n
    decreases |vs|
  {
    if vs != [] {
      ExtendMembers(vs[1..], n, w);
      RowMembers(vs[0], n + 1, w);
      assert vs == [vs[0]] + vs[1..];
    }
  }

  /** A draw vector stays valid under one more draw exactly when that draw
      is at most the vector's length. */
  lemma ValidSnoc(u: seq<nat>, x: nat)
    ensures ValidDraws(u + [x]) <==> ValidDraws(u) && x <= |u|
  {
    var w := u + [x];
    assert w[|u|] == x;
    assert forall i :: 0 <= i < |u| ==> w[i] == u[i];
  }

  /** AllDraws(n) holds exactly the valid draw vectors of length n. */
  lemma {:induction false} AllDrawsMembers(n: nat, w: seq<nat>)
    ensures w in AllDraws(n) <==> |w| == n && ValidDraws(w)
  {
    if n == 0 {
      assert AllDraws(0) == [[]];
    } else {
      ExtendMembers(AllDraws(n - 1), n - 1, w);
      if |w| > 0 {
        var u := w[..|w| - 1];
        AllDrawsMembers(n - 1, u);
        assert w == u + [w[|w| - 1]];
        ValidSnoc(u, w[|w| - 1]);
      }
    }
  }

  lemma AllDrawsLengths(n: nat)
    ensures forall i :: 0 <= i < |AllDraws(n)| ==> |AllDraws(n)[i]| == n
  {
    forall i | 0 <= i < |AllDraws(n)|
      ensures |AllDraws(n)[i]| == n
    {
      AllDrawsMembers(n, AllDraws(n)[i]);
    }
  }

  lemma RowNoDuplicates(v: seq<nat>, m: nat)
    ensures NoDuplicates(Row(v, m))
  {
    var r := Row(v, m);
    RowElements(v, m);
    forall i, j | 0 <= i < j < m
      ensures r[i] != r[j]
    {
      assert r[i][|v|] == i && r[j][|v|] == j;
    }
  }

  lemma {:induction false} ExtendNoDuplicates(vs: seq<seq<nat>>, n: nat)
    requires NoDuplicates(vs)
    ensures NoDuplicates(Extend(vs, n))
    decreases |vs|
  {
    if vs != [] {
      var a := Row(vs[0], n + 1);
      var b := Extend(vs[1..], n);
      RowNoDuplicates(vs[0], n + 1);
      ExtendNoDuplicates(vs[1..], n);
      forall i, j | 0 <= i < |a| && 0 <= j < |b|
        ensures a[i] != b[j]
      {
        RowMembers(vs[0], n + 1, a[i]);
        ExtendMembers(vs[1..], n, b[j]);
      }
      var c := a + b;
      forall i, j | 0 <= i < j < |c|
        ensures c[i] != c[j]
      {
        if j < |a| {
          assert c[i] == a[i] && c[j] == a[j];
        } else if i >= |a| {
          assert c[i] == b[i - |a|] && c[j] == b[j - |a|];
        } else {
          assert c[i] == a[i] && c[j] == b[j - |a|];
        }
      }
    }
  }

  /** No draw vector is listed twice. */
  lemma {:induction false} AllDrawsNoDuplicates(n: nat)
    ensures NoDuplicates(AllDraws(n))
  {
    if n > 0 {
      AllDrawsNoDuplicates(n - 1);
      ExtendNoDuplicates(AllDraws(n - 1), n - 1);
    }
  }

  /** The counting form of uniformity: of the n! valid draw vectors of
      length n, each listed once, exactly (n-1)! select index k, for every
      k < n, and every one of them selects some index. */
  lemma {:induction false} ReservoirIsUniform(n: nat, k: nat)
    requires k < n
    ensures |AllDraws(n)| == Factorial(n)
    ensures NoDuplicates(AllDraws(n))
    ensures forall w :: w in AllDraws(n) <==> |w| == n && ValidDraws(w)
    ensures CountPicks(AllDraws(n), k) == Factorial(n - 1)
  {
    AllDrawsLength(n);
    AllDrawsNoDuplicates(n);
    forall w
      ensures w in AllDraws(n) <==> |w| == n && ValidDraws(w)
    {
      AllDrawsMembers(n, w);
    }
    CountSelected(n, k);
  }

  lemma {:induction false} CountSelected(n: nat, k: nat)
    requires k < n
    ensures CountPicks(AllDraws(n), k) == Factorial(n - 1)
  {
    AllDrawsLengths(n - 1);
    if k == n - 1 {
      CountPicksExtendNew(AllDraws(n - 1), n - 1);
      AllDrawsLength(n - 1);
    } else {
      CountPicksExtendOld(AllDraws(n - 1), n - 1, k);
      CountSelected(n - 1, k);
      TimesIsProduct(n - 1, Factorial(n - 2));
    }
  }
}
